=== FILE: README.md ===
# Reducthor action generation, in Dafny

Reducthor takes a list of action descriptors, or an object that maps
namespace keys to such lists. For each descriptor it generates the reducer
entries that maintain the store state and a callable that drives them. This
project models that generation engine, `src/Reducthor.ts`:

- **Name derivation.** `FETCH_ITEM` yields the callable name `fetchItem` and
  six event types, `FETCH_ITEM_SET_REQUESTING` … `FETCH_ITEM_FINISHED`.
- **Lifecycle handlers.** A request descriptor gets six handlers. Three of
  them write `<NAME>_STATUS` (REQUESTING, OK, ERROR) before delegating to the
  user's callback. The others pass through. The first argument (response,
  error or progress event) is shifted off before the callback sees it.
- **Routing.** Flat mode has one table. Namespaced mode has one table per
  namespace, combined the way `combineReducers` does it.
- **The request callable.** It dispatches Requesting, builds the request
  (form body or query parameters, auth header), calls the transport,
  dispatches the progress events, then OK or Error, then Finished, and
  settles its promise.
- **The simple callable.** It makes one dispatch inside a `try`.
- **`configAuth`.** It merges the incoming auth configuration into the
  current one.

Modelling conventions:

- JavaScript values are the datatype `JsValues.Value`.
- A thrown exception is `Completion.Throw`.
- User callbacks are function values inside `Descriptors.Descriptor`.
- The store is its root reducer. When that reducer throws, the store keeps
  its state and the exception reaches the dispatcher.
- The HTTP transport is a function from the request configuration to the
  progress events it delivers and its outcome.
- A callable returns its trace of dispatched events, the final state, the
  transport call (configuration and the state it saw) and how its promise
  settles.

Modules, one file each:

| module | contents |
|---|---|
| `JsValues` | values, truthiness, `args.shift()` |
| `Names` | case mapping, the underscore replacement, event types, derived names |
| `Descriptors` | descriptors, auth configuration, the constructor's configuration |
| `Handlers` | the handlers as data and `Apply` |
| `Store` | events, reducers, sequential dispatch, promise settlements |
| `Registry` | registration in order, last write wins |
| `Reducers` | handler tables, the flat route, the combined namespace reducer |
| `Auth` | `configAuth` and the auth header |
| `Requests` | the request callable |
| `SimpleCalls` | the simple callable |
| `Engine` | the generated surface, invocation, end-to-end properties, concrete runs |

Behaviour of the code worth knowing, each stated by a member below:

- The request path is sent as written (src/Reducthor.ts:248); there is no placeholder substitution.
- A form is built only when the first argument is truthy and the method is post, patch or put (src/Reducthor.ts:229-236); otherwise the first argument becomes both the body and the query parameters.
- Namespaces are not isolated: `combineReducers` runs every namespace reducer on every event, so two namespaces with non-empty keys that register the same event type both react to it (`Engine.LemmaNamespacesShareEventsAsWritten`, and `Engine.LemmaNamespacesShareEvents` for the whole call).
- In namespaced mode the namespace objects are properties of the handler array itself (src/Reducthor.ts:22, :95), and the list of namespace `""` writes its handlers into that array (src/Reducthor.ts:139, :281). A handler of `""` named like the key of a namespace registered before it (integer-like keys always come first) replaces that namespace's object, and that namespace's reducer then finds nothing (`Engine.LemmaEmptyNamespaceShadows`). A namespace registered after `""` creates its object afresh at :95, replacing such a handler, and keeps its own actions (`Engine.LemmaLaterNamespaceReplacesHandler`).
- One invocation can dispatch both OK and Error: `.catch` is chained after `.then`, so an exception thrown while OK is dispatched also dispatches Error (`Requests.LemmaOkThrowTakesErrorBranch`, `Engine.LemmaOkCallbackThrowRun`).
- src/Reducthor.ts:2 imports `ReducthorAction` and `ReducthorConfiguration`, but src/Reducthor.types.ts exports `Action`, `Config` and `MultyAction`. `MultyAction` types each namespace as a single `Action`, while the code iterates over a list; the model uses lists.

## Model

| member | source | states |
|---|---|---|
| JsValues.LemmaShiftRoundTrip | src/Reducthor.ts:155-157 | for a non-empty argument list, the shifted-off first argument followed by the rest is the original list |
| Names.CamelizeUnderscores | src/Reducthor.ts:128 | the replacement never lengthens the name, and leaves a name without underscores unchanged |
| Names.LemmaCallableNameRoundTrip | src/Reducthor.ts:128 | for a name with no lower-case letters, the callable name can be turned back into the original name |
| Names.LemmaCallableNameInjective | src/Reducthor.ts:128 | two distinct names with no lower-case letters never get the same callable name |
| Names.LemmaCallableNameIsLowerCamel | src/Reducthor.ts:128 | the callable name of `first_w1_w2…` (each word starting with a letter) is `first` lower-cased followed by each word capitalised |
| Names.LemmaSnakeOfCamelize | src/Reducthor.ts:128 | on a lower-cased name, undoing the replacement and upper-casing gives back the upper-cased name |
| Names.LemmaCamelizeTailWords | src/Reducthor.ts:128 | the replacement turns `_w1_w2…` (lower-cased) into the words capitalised and concatenated |
| Names.LemmaSimpleActionName | src/Reducthor.ts:293 | `SIMPLE_ACTION` becomes `simpleAction` |
| Names.LemmaDigitUnderscoreName | src/Reducthor.ts:128 | an underscore before a non-letter is kept: `A_1` becomes `a_1` |
| Names.LemmaEventTypeInjective | src/Reducthor.ts:129-134 | an event type determines both the descriptor name and the phase, even across descriptors |
| Names.DeriveNames | src/Reducthor.ts:126-136 | the six event types are pairwise distinct; each is the name plus its phase suffix; none equals the name itself; the function name is the callable name |
| Handlers.Apply | src/Reducthor.ts:138-206 | without a callback, the Requesting, OK and Error handlers change only the status key, and every other handler returns the state unchanged |
| Handlers.LemmaStatusHandlersCallBack | src/Reducthor.ts:142-151 | the Requesting, OK and Error callbacks receive the state with the status already written; OK and Error receive the first argument apart from the rest |
| Handlers.LemmaPassThroughHandlersCallBack | src/Reducthor.ts:153-171 | the progress, Finished and simple callbacks receive the incoming state untouched; the progress ones receive the event apart from the call's arguments |
| Handlers.LemmaStatusOverwrites | src/Reducthor.ts:175 | a status write replaces whatever status was there |
| Store.DispatchEach | src/Reducthor.ts:252-257 | dispatching events that leave every state unchanged (or throw) leaves the state unchanged |
| Registry.LemmaRegisterKeys | src/Reducthor.ts:63-75 | a key is registered iff some descriptor contributes it |
| Registry.LemmaRegisterLastWins | src/Reducthor.ts:63-75 | a registered key holds the entry of the last descriptor that contributes it |
| Reducers.LifecycleEntries | src/Reducthor.ts:138-206 | a request descriptor registers exactly its six event types, each mapped to its own phase handler |
| Reducers.Entries | src/Reducthor.ts:65-73 | a simple descriptor registers its handler under its own name; a descriptor of any other type registers nothing |
| Reducers.LemmaFlatRouting | src/Reducthor.ts:78-87 | an event type no descriptor registers leaves the state unchanged; otherwise the handler of the last descriptor registering it runs on the state and the event's arguments |
| Reducers.CombinedReduce | src/Reducthor.ts:89-122 | a successful dispatch yields one slice per namespace and no other key; a throwing dispatch throws the exception of one of the namespace reducers |
| Reducers.LemmaNamespacedSucceeds | src/Reducthor.ts:122 | a namespaced dispatch succeeds iff every namespace reducer succeeds on its own slice |
| Reducers.LemmaNamespaceRouting | src/Reducthor.ts:112-118 | after a successful dispatch, each namespace's slice is what its own table makes of its old slice (an empty map when absent) |
| Reducers.LemmaNamespaceKeepsSlice | src/Reducthor.ts:112-118 | a namespace whose table does not register the event type keeps its slice |
| Auth.ConfigAuth | src/Reducthor.ts:53-59 | the token always comes from the incoming configuration; the header name comes from the incoming one when given, otherwise it is kept; with no current configuration the incoming one is taken as it is |
| Auth.LemmaConfigAuthIsSpread | src/Reducthor.ts:55 | merging into an existing configuration is right-biased union of the present properties |
| Auth.LemmaConfigAuthIdempotent | src/Reducthor.ts:53-59 | repeating the same `configAuth` call changes nothing further |
| Auth.AuthHeaders | src/Reducthor.ts:241-243 | a header is sent iff the descriptor is private and an auth configuration exists; it is then the only header, named by the configured header (`Authentication` when absent or empty), and carries the token |
| Auth.LemmaAuthScenario | src/Reducthor.ts:53-59 | a sequence of `configAuth` calls: no header, then `Authentication: t`, then `X: u`, then `X: v` (the header name survives a token-only update); a public descriptor sends none |
| Requests.BuildRequest | src/Reducthor.ts:223-251 | the body is a form iff the first argument is truthy and the method is exactly post, patch or put; a form goes with empty query parameters; otherwise the first argument is both body and parameters; the path, method, base URL and auth headers are passed through |
| Requests.TransferEvents | src/Reducthor.ts:252-257 | one progress dispatch per transfer the transport delivers, in order |
| Requests.LemmaPhaseEventTyping | src/Reducthor.ts:221 | each event the request callable dispatches is typed with the name `generateDerivedActionsNames` derives for its phase |
| Requests.Recover | src/Reducthor.ts:266-272 | the error branch dispatches Error with the error first; the promise rejects with `{error, args}` iff both the Error and Finished dispatches return; it never resolves |
| Requests.Settle | src/Reducthor.ts:259-272 | the promise resolves iff the transport answers and both the OK and Finished dispatches return; it then resolves with `{response, args}` after exactly OK and Finished; a rejection always follows Error (carrying the error) and Finished and carries `{error, args}` |
| Requests.RequestCall | src/Reducthor.ts:215-277 | Requesting is dispatched first; the transport is called iff that dispatch returns, with the built request, and it sees the REQUESTING state; a throwing Requesting dispatch rejects with the raw exception; a resolution carries the exact event trace and `{response, args}`; a rejection after the transport call ends the trace with Error and Finished and carries `{error, args}` |
| Requests.LemmaSuccessOrder | src/Reducthor.ts:221-264 | with handlers that never throw, a successful request dispatches exactly Requesting, its progress events in order, OK and Finished, and resolves with `{response, args}` |
| Requests.LemmaFailureOrder | src/Reducthor.ts:221-271 | with handlers that never throw, a failed request dispatches exactly Requesting, its progress events, Error and Finished, and rejects with `{error, args}` |
| Requests.LemmaOkThrowTakesErrorBranch | src/Reducthor.ts:259-272 | an exception thrown by the OK dispatch is handled as a transport error: OK, then Error carrying that exception, then Finished, and a rejection |
| SimpleCalls.SimpleCall | src/Reducthor.ts:296-310 | the only dispatch is `{type: name, args}`; the promise resolves with `{args}` iff that dispatch returns; otherwise it rejects with `{error, args}` and the state is unchanged |
| Engine.LemmaFlatSurface | src/Reducthor.ts:63-75 | in flat mode a callable name is attached iff some request or simple descriptor has it, and it holds the callable of the last such descriptor |
| Engine.LemmaNamespacedSurface | src/Reducthor.ts:91-109 | in namespaced mode there is one callable object per namespace key, holding the callables of that namespace's own list |
| Engine.LemmaAuthReachesCallables | src/Reducthor.ts:241-243 | a callable invoked after `configAuth` sends the header of the merged configuration |
| Engine.LemmaLastRequestRoutes | src/Reducthor.ts:78-87 | the flat table routes all six event types of the request descriptor that last registers them to that descriptor's own handlers |
| Engine.LemmaQuietProgress | src/Reducthor.ts:153-171 | without progress callbacks, the progress events of a request leave the state unchanged |
| Engine.LemmaQuietRequestStatus | src/Reducthor.ts:138-277 | for a request descriptor without callbacks, the transport sees the status REQUESTING; the final state is the original one with status OK after a response, or ERROR after a failure; the promise resolves or rejects accordingly |
| Engine.LemmaFlatQuietRequest | src/Reducthor.ts:61-87 | the same end states for the request callable of a flat instance, when its descriptor last registers its event types |
| Engine.LemmaFlatSimpleCall | src/Reducthor.ts:280-312 | a flat simple callable runs the `action` of the last simple descriptor of its name: without an action it resolves and changes nothing; otherwise it resolves with the action's state, or rejects with the action's exception and keeps the state |
| Engine.LemmaSimpleActionRun | test/Reducthor.test.ts:10-67 | `SIMPLE_ACTION` attaches exactly `simpleAction`; calling it with or without arguments stores `key: value`, and it resolves with `{args: [10, 'dies']}` |
| Engine.LemmaSetKeyValueRun | src/Reducthor.ts:280-312 | the same for a simple descriptor under any name: exactly one callable, under the derived name, which stores `key: value` and resolves with the arguments |
| Engine.LemmaThrowingActionRun | test/Reducthor.test.ts:69-94 | a throwing action makes the callable reject with `{error, args: [10, 'dies']}` and leaves the state empty |
| Engine.LemmaOkCallbackThrowRun | src/Reducthor.ts:259-272 | for any transport that answers the request at once: an `onRequestOk` that throws makes both OK and Error dispatched, the final status is ERROR, and the promise rejects with the callback's exception although the server answered |
| Engine.LemmaNamespacesShareEvents | src/Reducthor.ts:112-122 | two namespaces with the same simple name: the callable is attached under the first namespace, and calling it runs the action on both namespaces' slices |
| Engine.LemmaRegisterIntoNamespace | src/Reducthor.ts:139-142 | registering a list under a truthy namespace key appends its handlers to that namespace's own object and changes no other key of the handler array |
| Engine.LemmaRegisterIntoRoot | src/Reducthor.ts:281-283 | registering a list under the falsy key `""` writes its handlers into the handler array itself, each replacing whatever the array held under its key, a namespace's object included; every other key keeps its value |
| Engine.LemmaLastGroupTable | src/Reducthor.ts:94-95 | after a namespace is registered, the array holds an object under its key, and the table its reducer reads holds its own list's handlers, or nothing when its key is `""` |
| Engine.LemmaEarlierGroupTable | src/Reducthor.ts:91-109 | registering one namespace leaves every other key of the handler array as it was, except that a namespace `""` replaces the value under each key its handlers are named by |
| Engine.LemmaRegisteredTables | src/Reducthor.ts:91-120 | as written, with distinct keys, the table the reducer of each namespace reads is that namespace's own list's table; it is empty when the key is `""`, or when a later namespace `""` registers a handler under that key |
| Engine.LemmaEmptyNamespaceShadows | src/Reducthor.ts:91-120 | a namespace `""` registered after namespace `ns` with a simple action named `ns` leaves the reducer of `ns` with an empty table |
| Engine.LemmaLaterNamespaceReplacesHandler | src/Reducthor.ts:91-120 | a namespace `ns` registered after a namespace `""` that holds a simple action named `ns` still reads its own list's table |
| Engine.LemmaNamespacesShareEventsAsWritten | src/Reducthor.ts:91-120 | as written, two namespaces with distinct non-empty keys that hold the same simple descriptor both route its event type to its handler |
| Engine.LemmaEmptyNamespaceDropsActions | src/Reducthor.ts:281 | under the namespace key `""` the handler is written into the handler array under its own name, the reducer of `""` finds nothing and leaves its slice alone as written, while the per-namespace table runs the action |

## Left out

- Store construction, middleware, `composeWithDevTools` and `initialState` (src/Reducthor.ts:25-44). The state an invocation starts from is a parameter.
- axios is a parameter, the transport. Redirects, timeouts and the contents of the response and error objects are not modelled.
- `FormData` is modelled as the value its fields are taken from. Object-key enumeration and field coercion are left out.
- Promise mechanics and concurrency. An invocation runs to completion, and interleavings of concurrent invocations are not modelled.
- An exception thrown while a progress event is dispatched occurs inside the transport's listener and does not reach the callable; the model drops it.
- Dynamic attachment of properties on the instance is modelled as maps. A callable name that collides with a member of the instance (`store`, `configAuth`) is not modelled.
- Reducers.LemmaFlatRouting: the lookup `this.actions[action.type]` (src/Reducthor.ts:81) also finds properties the handler array inherits (`length`, `map`, `constructor`, …); the model treats an event type naming one of them as unregistered, so it does not model the inherited function running, or throwing, as a handler.
- Reducers.LemmaNamespaceKeepsSlice: the same holds per namespace (src/Reducthor.ts:113), where the table is a plain object inheriting `toString`, `hasOwnProperty`, …; a namespace whose table does not register such a type is stated to keep its slice, while the code would run the inherited function on it.
- Engine.LemmaNamespacedSurface: describes the corrected handling of `""`. The code attaches the callables of namespace `""` on the instance itself (src/Reducthor.ts:213, :294) and leaves `this[""]` the empty object created at :94; the surface model attaches them under `""`. A callable of `""` named like the key of a namespace registered before it therefore replaces that namespace's callable object on the instance, which the surface model does not show.
- Engine.LemmaNamespacesShareEvents: describes the corrected handling of `""`, where every namespace reads its own list's table; for a key `""` the code's reducer reads an empty table (`Engine.LemmaEmptyNamespaceDropsActions`). `Engine.LemmaNamespacesShareEventsAsWritten` states the sharing as written, for non-empty keys.
- Names.CamelizeUnderscores and the case mapping: only ASCII letters change case, while `toLowerCase`/`toUpperCase` also map non-ASCII letters.
- A callback that returns something other than an immutable map is not modelled. In namespaced mode `undefined` makes `combineReducers` throw; any non-map value makes the next status handler's `state.set` throw.
- Auth configuration properties that are present but `undefined` are treated as absent.
- Object key order puts integer-like namespace keys first. The model takes namespaces in list order.
- src/Reduxer.ts, src/builders/fetcher.ts and the test tooling are not part of this model.

## Findings

| source | as written | input that shows it | evidently intended | confidence | as-written member | corrected member |
|---|---|---|---|---|---|---|
| src/Reducthor.ts:139 | the handler table is chosen by `reducerNameSpace ? this.actions[reducerNameSpace] : this.actions` (likewise :281 and, for callables, :213 and :294) | `actions: {'': [{name: 'PING', action}]}`: the handlers of namespace `''` land in the handler array itself and its callable on the instance itself, while the reducer of `''` looks in the empty object created at :95, so `PING` never changes that slice; and with `{A: [{name: 'X', action}], '': [{name: 'A', action: g}]}` the handler `A` replaces the object of namespace `A`, whose reducer then finds nothing (`Engine.LemmaEmptyNamespaceShadows`) | select the namespace's own table and object whenever a namespace key is given, including `''` | medium, not executed | Engine.LemmaEmptyNamespaceDropsActions | Reducers.LemmaNamespaceRouting |

=== FILE: auth.dfy ===
/** Auth configuration: `configAuth` and the header a private request carries. */
module Auth {
  import opened JsValues
  import opened Descriptors

  /** `configAuth(incoming)`: without a current configuration the incoming one
      is taken as it is; otherwise `{...current, ...incoming}`, so every field
      the incoming configuration has wins and the others are kept. */
  function ConfigAuth(current: Option<AuthConfig>, incoming: AuthConfig): (r: AuthConfig)
    ensures r.token == incoming.token
    ensures incoming.header.Some? ==> r.header == incoming.header
    ensures incoming.header.None? && current.Some? ==> r.header == current.value.header
    ensures current.None? ==> r == incoming
  {
    match current
    case None => incoming
    case Some(c) => AuthConfig(if incoming.header.Some? then incoming.header else c.header, incoming.token)
  }

  /** An auth configuration as the plain object it is: only present
      properties are keys. */
  function Fields(a: AuthConfig): map<string, string> {
    (if a.header.Some? then map["header" := a.header.value] else map[]) + map["token" := a.token]
  }

  /** `configAuth` on an existing configuration is object spread, which is
      right-biased map union on the properties. */
  lemma LemmaConfigAuthIsSpread(c: AuthConfig, incoming: AuthConfig)
    ensures Fields(ConfigAuth(Some(c), incoming)) == Fields(c) + Fields(incoming)
  {
  }

  /** Repeating the same reconfiguration changes nothing further. */
  lemma LemmaConfigAuthIdempotent(current: Option<AuthConfig>, incoming: AuthConfig)
    ensures ConfigAuth(Some(ConfigAuth(current, incoming)), incoming) == ConfigAuth(current, incoming)
  {
  }

  /** `authConfig.header || 'Authentication'`: an absent or empty header name
      falls back to `Authentication`. */
  function HeaderName(a: AuthConfig): string {
    if a.header.Some? && a.header.value != "" then a.header.value else "Authentication"
  }

  /** The request headers: exactly one header, carrying the token, when the
      descriptor is private and an auth configuration exists; none otherwise
      (a private descriptor without configuration is not an error). */
  function AuthHeaders(isPrivate: bool, auth: Option<AuthConfig>): (h: map<string, string>)
    ensures h != map[] <==> isPrivate && auth.Some?
    ensures isPrivate && auth.Some? ==> h.Keys == {HeaderName(auth.value)} && h[HeaderName(auth.value)] == auth.value.token
  {
    if isPrivate && auth.Some? then
      var h := map[HeaderName(auth.value) := auth.value.token];
      assert HeaderName(auth.value) in h;
      h
    else
      map[]
  }

  /** A private descriptor first sends no header; after `configAuth({token:
      't'})` it sends `Authentication: t`; after `configAuth({header: 'X', token:
      'u'})` it sends `X: u`; a later `configAuth({token: 'v'})` keeps the
      header name `X`. */
  lemma LemmaAuthScenario()
    ensures AuthHeaders(true, None) == map[]
    ensures var a1 := ConfigAuth(None, AuthConfig(None, "t"));
      && AuthHeaders(true, Some(a1)) == map["Authentication" := "t"]
      && var a2 := ConfigAuth(Some(a1), AuthConfig(Some("X"), "u"));
      && AuthHeaders(true, Some(a2)) == map["X" := "u"]
      && var a3 := ConfigAuth(Some(a2), AuthConfig(None, "v"));
      && AuthHeaders(true, Some(a3)) == map["X" := "v"]
    ensures AuthHeaders(false, Some(AuthConfig(Some("X"), "u"))) == map[]
  {
  }
}

=== FILE: descriptors.dfy ===
/** The configuration shapes: action descriptors, auth configuration and the
    constructor's configuration record.

    The state of one reducer is an immutable string-keyed map. User callbacks
    are uninterpreted function values; one that throws returns `Throw`.
 */
module Descriptors {
  import opened JsValues

  /** The immutable `Map` a reducer works on. */
  type State = map<string, Value>

  /** `(state, ...args) => state`: `action`, `onAction`, `onFinish`. */
  type Callback = (State, seq<Value>) -> Completion<State>

  /** `(state, first, ...args) => state`: `onRequestOk`, `onRequestError`,
      `onUploadProgress`, `onDownloadProgress`, which receive the response, the
      error or the progress event apart from the call's own arguments. */
  type ResultCallback = (State, Value, seq<Value>) -> Completion<State>

  /** One action descriptor. `kind` is the optional `type` property and
      `httpMethod` the optional `method`, kept as the strings the caller wrote;
      an absent `private` is `false`. */
  datatype Descriptor = Descriptor(
    name: string,
    kind: Option<string>,
    httpMethod: Option<string>,
    path: Option<string>,
    isPrivate: bool,
    action: Option<Callback>,
    onAction: Option<Callback>,
    onRequestOk: Option<ResultCallback>,
    onRequestError: Option<ResultCallback>,
    onUploadProgress: Option<ResultCallback>,
    onDownloadProgress: Option<ResultCallback>,
    onFinish: Option<Callback>)

  /** `type === 'request'`. */
  predicate IsRequest(d: Descriptor) {
    d.kind == Some("request")
  }

  /** `!type || type === 'simple'`: an absent or empty type means simple. */
  predicate IsSimple(d: Descriptor) {
    d.kind == None || d.kind == Some("") || d.kind == Some("simple")
  }

  lemma LemmaKindsExclusive(d: Descriptor)
    ensures !(IsRequest(d) && IsSimple(d))
  {
    assert "request"[0] != "simple"[0];
  }

  /** A request descriptor with none of the lifecycle callbacks. */
  predicate HasNoLifecycleCallbacks(d: Descriptor) {
    && d.onAction.None?
    && d.onRequestOk.None?
    && d.onRequestError.None?
    && d.onUploadProgress.None?
    && d.onDownloadProgress.None?
    && d.onFinish.None?
  }

  /** The token is required by the type; the header name is optional. */
  datatype AuthConfig = AuthConfig(header: Option<string>, token: string)

  /** One namespace of the object form of `actions`: its key and its list. */
  datatype Group = Group(name: string, actions: seq<Descriptor>)

  /** `actions` is either an array (flat mode) or an object keyed by namespace. */
  datatype Actions = ActionList(descriptors: seq<Descriptor>) | ActionGroups(groups: seq<Group>)

  datatype Config = Config(baseUrl: Option<string>, authConfig: Option<AuthConfig>, actions: Actions)

  /** Object keys are unique. */
  predicate DistinctGroupNames(groups: seq<Group>) {
    forall i, j :: 0 <= i < j < |groups| ==> groups[i].name != groups[j].name
  }
}

=== FILE: engine.dfy ===
/** The generated surface and the whole engine.

    Construction attaches one callable per request or simple descriptor, under
    its camel-cased name: on the instance in flat mode, on the namespace object
    in namespaced mode. Invoking a callable dispatches into the store whose
    root reducer is the flat reducer or the combined namespace reducers; it
    reads the auth configuration and the base URL at the moment it is called.
 */
module Engine {
  import opened JsValues
  import opened Names
  import opened Descriptors
  import opened Handlers
  import opened Store
  import opened Registry
  import opened Reducers
  import opened Auth
  import opened Requests
  import opened SimpleCalls

  datatype Callable = RequestCallable(d: Descriptor) | SimpleCallable(d: Descriptor)

  /** Request and simple descriptors attach a callable; others attach nothing. */
  predicate Attaches(d: Descriptor) {
    IsRequest(d) || IsSimple(d)
  }

  function CallableOf(d: Descriptor): Callable {
    if IsRequest(d) then RequestCallable(d) else SimpleCallable(d)
  }

  /** The request callable is attached under the derived `functionName`; the
      simple callable under the same transformation, computed in place. */
  function CallableEntries(d: Descriptor): map<string, Callable> {
    if IsRequest(d) then map[DeriveNames(d.name).functionName := RequestCallable(d)]
    else if IsSimple(d) then map[CallableName(d.name) := SimpleCallable(d)]
    else map[]
  }

  /** The callables of one list, attached in order: a later descriptor whose
      callable name coincides replaces the earlier callable. */
  function BuildCallables(descs: seq<Descriptor>): map<string, Callable> {
    Register(descs, CallableEntries)
  }

  function NamespaceEntry(g: Group): map<string, map<string, Callable>> {
    map[g.name := BuildCallables(g.actions)]
  }

  datatype Surface =
    | FlatSurface(callables: map<string, Callable>)
    | NamespacedSurface(namespaces: map<string, map<string, Callable>>)

  function GenerateSurface(actions: Actions): Surface {
    match actions
    case ActionList(descs) => FlatSurface(BuildCallables(descs))
    case ActionGroups(groups) => NamespacedSurface(Register(groups, NamespaceEntry))
  }

  /** The flat surface: a name is attached iff some request or simple
      descriptor has it as its callable name, and it holds the callable of the
      last such descriptor. */
  lemma LemmaFlatSurface(descs: seq<Descriptor>, k: string)
    ensures GenerateSurface(ActionList(descs)).callables == BuildCallables(descs)
    ensures k in BuildCallables(descs) <==>
      exists i :: 0 <= i < |descs| && Attaches(descs[i]) && CallableName(descs[i].name) == k
    ensures forall j :: LastRegisters(descs, CallableEntries, j, k) ==>
      Attaches(descs[j]) && CallableName(descs[j].name) == k && BuildCallables(descs)[k] == CallableOf(descs[j])
  {
    LemmaRegisterKeys(descs, CallableEntries, k);
    forall j | LastRegisters(descs, CallableEntries, j, k)
      ensures Attaches(descs[j]) && CallableName(descs[j].name) == k && BuildCallables(descs)[k] == CallableOf(descs[j])
    {
      LemmaRegisterLastWins(descs, CallableEntries, k, j);
    }
  }

  /** The namespaced surface: one object per namespace key, holding the
      callables of that namespace's own list. */
  lemma LemmaNamespacedSurface(groups: seq<Group>, i: int)
    requires DistinctGroupNames(groups)
    requires 0 <= i < |groups|
    ensures GenerateSurface(ActionGroups(groups)).namespaces.Keys == GroupNames(groups)
    ensures GenerateSurface(ActionGroups(groups)).namespaces[groups[i].name] == BuildCallables(groups[i].actions)
  {
    var ns := Register(groups, NamespaceEntry);
    forall k ensures k in ns <==> k in GroupNames(groups) {
      LemmaRegisterKeys(groups, NamespaceEntry, k);
    }
    assert LastRegisters(groups, NamespaceEntry, i, groups[i].name);
    LemmaRegisterLastWins(groups, NamespaceEntry, groups[i].name, i);
  }

  // ---------------------------------------------------------------------------
  // The store's root reducer and the invocation of a callable.

  function FlatReducer(descs: seq<Descriptor>): Reducer<State> {
    (s: State, e: Event) => Route(BuildTable(descs), s, e)
  }

  function NamespacedReducer(groups: seq<Group>): Reducer<map<string, State>> {
    (s: map<string, State>, e: Event) => CombinedReduce(groups, s, e)
  }

  /** `configAuth` on the instance: only the auth configuration changes. */
  function WithAuth(c: Config, incoming: AuthConfig): Config {
    c.(authConfig := Some(ConfigAuth(c.authConfig, incoming)))
  }

  datatype Invocation<S> = RequestInvocation(request: RequestRun<S>) | SimpleInvocation(simple: SimpleRun<S>)

  function Invoke<S(!new)>(c: Callable, config: Config, reduce: Reducer<S>, s: S, args: seq<Value>,
                           transport: Transport): Invocation<S>
  {
    match c
    case RequestCallable(d) => RequestInvocation(RequestCall(reduce, s, d, args, config.authConfig, config.baseUrl, transport))
    case SimpleCallable(d) => SimpleInvocation(SimpleCall(reduce, s, d, args))
  }

  /** A callable generated before `configAuth` sends the header of the
      configuration as it is when the callable is invoked. */
  lemma LemmaAuthReachesCallables<S(!new)>(config: Config, incoming: AuthConfig, d: Descriptor, reduce: Reducer<S>,
                                           s: S, args: seq<Value>, transport: Transport)
    requires d.isPrivate
    ensures var r := Invoke(RequestCallable(d), WithAuth(config, incoming), reduce, s, args, transport).request;
      var a := ConfigAuth(config.authConfig, incoming);
      r.sent.Some? ==> r.sent.value.config.headers == map[HeaderName(a) := incoming.token]
  {
    var a := ConfigAuth(config.authConfig, incoming);
    var h := AuthHeaders(true, Some(a));
    assert h.Keys == {HeaderName(a)} && h[HeaderName(a)] == incoming.token;
    assert h == map[HeaderName(a) := incoming.token];
  }

  // ---------------------------------------------------------------------------
  // A callable meets the handlers of its own descriptor.

  /** The table routes all six event types of `d` to `d`'s own handlers. */
  ghost predicate RoutesLifecycle(table: Table, d: Descriptor) {
    forall p :: EventType(d.name, p) in table && table[EventType(d.name, p)] == Lifecycle(d, p)
  }

  /** In flat mode the table routes the events of the descriptor that last
      registers each of them. */
  lemma LemmaLastRequestRoutes(descs: seq<Descriptor>, j: int)
    requires 0 <= j < |descs| && IsRequest(descs[j])
    requires forall p :: LastRegisters(descs, Entries, j, EventType(descs[j].name, p))
    ensures RoutesLifecycle(BuildTable(descs), descs[j])
  {
    forall p ensures EventType(descs[j].name, p) in BuildTable(descs)
      && BuildTable(descs)[EventType(descs[j].name, p)] == Lifecycle(descs[j], p)
    {
      LemmaRegisterLastWins(descs, Entries, EventType(descs[j].name, p), j);
    }
  }

  /** Progress events of `d` leave the state as it is when `d` has no progress
      callbacks. */
  lemma {:induction false} LemmaQuietProgress(table: Table, d: Descriptor, s: State, ts: seq<Transfer>, args: seq<Value>)
    requires RoutesLifecycle(table, d)
    requires d.onUploadProgress.None? && d.onDownloadProgress.None?
    ensures DispatchEach((x: State, e: Event) => Route(table, x, e), s, TransferEvents(d.name, ts, args)) == s
  {
    var reduce := (x: State, e: Event) => Route(table, x, e);
    var events := TransferEvents(d.name, ts, args);
    forall i | 0 <= i < |events| ensures Inert(reduce, events[i]) {
      var p := if ts[i].Upload? then UploadProgress else DownloadProgress;
      assert events[i].eventType == EventType(d.name, p);
      forall x ensures reduce(x, events[i]) == Normal(x) {
        assert table[EventType(d.name, p)] == Lifecycle(d, p);
      }
    }
  }

  /** A request descriptor without callbacks keeps only its status: REQUESTING
      while the transport runs, then OK after a response and ERROR after a
      failure, and nothing else in the state changes. */
  lemma LemmaQuietRequestStatus(table: Table, d: Descriptor, s: State, args: seq<Value>,
                                auth: Option<AuthConfig>, baseUrl: Option<string>, transport: Transport)
    requires RoutesLifecycle(table, d)
    requires HasNoLifecycleCallbacks(d)
    ensures var r := RequestCall((x: State, e: Event) => Route(table, x, e), s, d, args, auth, baseUrl, transport);
      var ex := transport(BuildRequest(d, args, auth, baseUrl));
      && r.sent.Some?
      && r.sent.value.stateAtCall == WithStatus(s, d.name, Requesting)
      && (ex.outcome.Response? ==>
            r.settlement == Fulfilled(ResponseRecord(ex.outcome.response, args)) && r.state == WithStatus(s, d.name, Ok))
      && (ex.outcome.Failure? ==>
            r.settlement == Rejected(ErrorRecord(ex.outcome.error, args)) && r.state == WithStatus(s, d.name, Error))
  {
    var reduce := (x: State, e: Event) => Route(table, x, e);
    var req := PhaseEvent(d.name, SetRequesting, args);
    var s1 := WithStatus(s, d.name, Requesting);
    assert reduce(s, req) == Normal(s1);
    var config := BuildRequest(d, args, auth, baseUrl);
    var ex := transport(config);
    var progress := TransferEvents(d.name, ex.transfers, args);
    LemmaQuietProgress(table, d, s1, ex.transfers, args);
    var t := Settle(reduce, s1, d.name, args, ex.outcome);
    assert RequestCall(reduce, s, d, args, auth, baseUrl, transport) ==
      RequestRun([req] + progress + t.trace, t.state, Some(Sent(config, s1)), t.settlement);
    LemmaQuietSettle(table, d, s1, args, ex.outcome);
    LemmaStatusOverwrites(s, d.name, Requesting, Ok);
    LemmaStatusOverwrites(s, d.name, Requesting, Error);
  }

  /** The settling events of a descriptor without callbacks only set its status. */
  lemma LemmaQuietSettle(table: Table, d: Descriptor, s: State, args: seq<Value>, outcome: Outcome)
    requires RoutesLifecycle(table, d)
    requires HasNoLifecycleCallbacks(d)
    ensures var t := Settle((x: State, e: Event) => Route(table, x, e), s, d.name, args, outcome);
      && (outcome.Response? ==>
            t.settlement == Fulfilled(ResponseRecord(outcome.response, args)) && t.state == WithStatus(s, d.name, Ok))
      && (outcome.Failure? ==>
            t.settlement == Rejected(ErrorRecord(outcome.error, args)) && t.state == WithStatus(s, d.name, Error))
  {
    var reduce := (x: State, e: Event) => Route(table, x, e);
    match outcome
    case Response(resp) =>
      assert reduce(s, PhaseEvent(d.name, RequestOk, [resp] + args)) == Normal(WithStatus(s, d.name, Ok));
      assert reduce(WithStatus(s, d.name, Ok), PhaseEvent(d.name, Finished, args)) == Normal(WithStatus(s, d.name, Ok));
    case Failure(err) =>
      assert reduce(s, PhaseEvent(d.name, RequestError, [err] + args)) == Normal(WithStatus(s, d.name, Error));
      assert reduce(WithStatus(s, d.name, Error), PhaseEvent(d.name, Finished, args)) == Normal(WithStatus(s, d.name, Error));
  }

  /** The flat instance: the callable attached for the last request descriptor
      of its name, invoked on a descriptor without callbacks, leaves only the
      status key changed. */
  lemma LemmaFlatQuietRequest(descs: seq<Descriptor>, j: int, config: Config, s: State, args: seq<Value>, transport: Transport)
    requires 0 <= j < |descs| && IsRequest(descs[j]) && HasNoLifecycleCallbacks(descs[j])
    requires forall p :: LastRegisters(descs, Entries, j, EventType(descs[j].name, p))
    ensures var d := descs[j];
      var r := Invoke(RequestCallable(d), config, FlatReducer(descs), s, args, transport).request;
      var ex := transport(BuildRequest(d, args, config.authConfig, config.baseUrl));
      && (ex.outcome.Response? ==> r.settlement.Fulfilled? && r.state == WithStatus(s, d.name, Ok))
      && (ex.outcome.Failure? ==> r.settlement.Rejected? && r.state == WithStatus(s, d.name, Error))
  {
    LemmaLastRequestRoutes(descs, j);
    LemmaQuietRequestStatus(BuildTable(descs), descs[j], s, args, config.authConfig, config.baseUrl, transport);
  }

  /** A simple callable in flat mode runs the `action` of the last simple
      descriptor of its name: without an action it resolves and changes
      nothing; with one it resolves with the action's state or rejects with
      its exception and keeps the state. */
  lemma LemmaFlatSimpleCall(descs: seq<Descriptor>, j: int, s: State, args: seq<Value>)
    requires 0 <= j < |descs| && IsSimple(descs[j])
    requires LastRegisters(descs, Entries, j, descs[j].name)
    ensures var d := descs[j];
      var r := SimpleCall(FlatReducer(descs), s, d, args);
      && (d.action.None? ==> r.state == s && r.settlement == Fulfilled(ArgsRecord(args)))
      && (d.action.Some? && d.action.value(s, args).Normal? ==>
            r.state == d.action.value(s, args).value && r.settlement == Fulfilled(ArgsRecord(args)))
      && (d.action.Some? && d.action.value(s, args).Throw? ==>
            r.state == s && r.settlement == Rejected(ErrorRecord(d.action.value(s, args).error, args)))
  {
    LemmaRegisterLastWins(descs, Entries, descs[j].name, j);
  }

  // ---------------------------------------------------------------------------
  // Concrete runs.

  function SetKeyValue(s: State, args: seq<Value>): Completion<State> {
    Normal(s["key" := Str("value")])
  }

  /** The exception `state.error()` raises on an immutable map. */
  function StateErrorIsNotAFunction(s: State, args: seq<Value>): Completion<State> {
    Throw(Str("TypeError: state.error is not a function"))
  }

  function SimpleDescriptor(name: string, action: Callback): Descriptor {
    Descriptor(name, None, None, None, false, Some(action), None, None, None, None, None, None)
  }

  /** `SIMPLE_ACTION` attaches `simpleAction`; calling it with or without
      arguments stores `key: value` and resolves with the arguments. */
  lemma LemmaSimpleActionRun(config: Config, transport: Transport)
    ensures var d := SimpleDescriptor("SIMPLE_ACTION", SetKeyValue);
      && GenerateSurface(ActionList([d])) == FlatSurface(map["simpleAction" := SimpleCallable(d)])
      && Invoke(SimpleCallable(d), config, FlatReducer([d]), map[], [], transport).simple.state == map["key" := Str("value")]
      && var r := Invoke(SimpleCallable(d), config, FlatReducer([d]), map[], [Num(10), Str("dies")], transport).simple;
      && r.state == map["key" := Str("value")]
      && r.settlement == Fulfilled(Obj(map["args" := Arr([Num(10), Str("dies")])]))
  {
    LemmaSimpleActionName();
    LemmaSetKeyValueRun("SIMPLE_ACTION", config, transport);
  }

  /** A simple action with `SetKeyValue` under any name: one callable under
      the derived name, which stores `key: value` and resolves with the
      arguments. */
  lemma LemmaSetKeyValueRun(name: string, config: Config, transport: Transport)
    ensures var d := SimpleDescriptor(name, SetKeyValue);
      && GenerateSurface(ActionList([d])) == FlatSurface(map[CallableName(name) := SimpleCallable(d)])
      && Invoke(SimpleCallable(d), config, FlatReducer([d]), map[], [], transport).simple.state == map["key" := Str("value")]
      && var r := Invoke(SimpleCallable(d), config, FlatReducer([d]), map[], [Num(10), Str("dies")], transport).simple;
      && r.state == map["key" := Str("value")]
      && r.settlement == Fulfilled(Obj(map["args" := Arr([Num(10), Str("dies")])]))
  {
    var d := SimpleDescriptor(name, SetKeyValue);
    LemmaRegisterSingle(d, CallableEntries);
    LemmaSetKeyValueInvoke(d, config, transport, []);
    LemmaSetKeyValueInvoke(d, config, transport, [Num(10), Str("dies")]);
  }

  lemma LemmaSetKeyValueInvoke(d: Descriptor, config: Config, transport: Transport, args: seq<Value>)
    requires d == SimpleDescriptor(d.name, SetKeyValue)
    ensures var r := Invoke(SimpleCallable(d), config, FlatReducer([d]), map[], args, transport).simple;
      && r.state == map["key" := Str("value")]
      && r.settlement == Fulfilled(Obj(map["args" := Arr(args)]))
  {
    assert Entries(d) == map[d.name := SimpleHandler(d)];
    LemmaRegisterSingle(d, Entries);
  }

  /** An action that throws makes the callable reject with `{error, args}`
      and leaves the state as it was. */
  lemma LemmaThrowingActionRun(config: Config, transport: Transport)
    ensures var d := SimpleDescriptor("SIMPLE_ACTION", StateErrorIsNotAFunction);
      var r := Invoke(SimpleCallable(d), config, FlatReducer([d]), map[], [Num(10), Str("dies")], transport).simple;
      && r.state == map[]
      && r.settlement == Rejected(Obj(map["error" := Str("TypeError: state.error is not a function"),
                                          "args" := Arr([Num(10), Str("dies")])]))
  {
    var d := SimpleDescriptor("SIMPLE_ACTION", StateErrorIsNotAFunction);
    LemmaRegisterSingle(d, Entries);
  }

  function ThrowOnOk(s: State, response: Value, args: seq<Value>): Completion<State> {
    Throw(Str("boom"))
  }

  /** The settlement step of `LemmaOkCallbackThrowRun`, after Requesting. */
  lemma LemmaOkCallbackThrowSettle(table: Table, d: Descriptor, s: State, args: seq<Value>, resp: Value)
    requires RoutesLifecycle(table, d)
    requires d.onRequestOk == Some(ThrowOnOk)
    requires d.onRequestError.None? && d.onFinish.None?
    ensures var t := Settle((x: State, e: Event) => Route(table, x, e), s, d.name, args, Response(resp));
      && t.trace == [PhaseEvent(d.name, RequestOk, [resp] + args), PhaseEvent(d.name, RequestError, [Str("boom")] + args),
                     PhaseEvent(d.name, Finished, args)]
      && t.settlement == Rejected(ErrorRecord(Str("boom"), args))
      && t.state == WithStatus(s, d.name, Error)
  {
    var reduce := (x: State, e: Event) => Route(table, x, e);
    assert reduce(s, PhaseEvent(d.name, RequestOk, [resp] + args)) == Throw(Str("boom"));
    assert reduce(s, PhaseEvent(d.name, RequestError, [Str("boom")] + args)) == Normal(WithStatus(s, d.name, Error));
    assert reduce(WithStatus(s, d.name, Error), PhaseEvent(d.name, Finished, args)) == Normal(WithStatus(s, d.name, Error));
    LemmaOkThrowTakesErrorBranch(reduce, s, d.name, args, resp, Str("boom"));
  }

  /** An `onRequestOk` that throws: OK and Error are both dispatched for the
      same call, the state ends with status ERROR, and the promise rejects
      with the callback's exception although the server answered. */
  lemma LemmaOkCallbackThrowRun(table: Table, d: Descriptor, s: State, args: seq<Value>,
                                auth: Option<AuthConfig>, baseUrl: Option<string>, transport: Transport, resp: Value)
    requires RoutesLifecycle(table, d)
    requires d.onRequestOk == Some(ThrowOnOk)
    requires d.onAction.None? && d.onRequestError.None? && d.onFinish.None?
    requires transport(BuildRequest(d, args, auth, baseUrl)) == Exchange([], Response(resp))
    ensures var r := RequestCall((x: State, e: Event) => Route(table, x, e), s, d, args, auth, baseUrl, transport);
      && r.trace == [PhaseEvent(d.name, SetRequesting, args), PhaseEvent(d.name, RequestOk, [resp] + args),
                     PhaseEvent(d.name, RequestError, [Str("boom")] + args), PhaseEvent(d.name, Finished, args)]
      && r.state == WithStatus(s, d.name, Error)
      && r.settlement == Rejected(ErrorRecord(Str("boom"), args))
  {
    var req := PhaseEvent(d.name, SetRequesting, args);
    var ok := PhaseEvent(d.name, RequestOk, [resp] + args);
    var er := PhaseEvent(d.name, RequestError, [Str("boom")] + args);
    var fin := PhaseEvent(d.name, Finished, args);
    LemmaOkCallbackThrowCall(table, d, s, args, auth, baseUrl, transport, resp);
    assert [req] + [ok, er, fin] == [req, ok, er, fin];
    LemmaStatusOverwrites(s, d.name, Requesting, Error);
  }

  /** The run of `LemmaOkCallbackThrowRun` as one value. */
  lemma LemmaOkCallbackThrowCall(table: Table, d: Descriptor, s: State, args: seq<Value>,
                                 auth: Option<AuthConfig>, baseUrl: Option<string>, transport: Transport, resp: Value)
    requires RoutesLifecycle(table, d)
    requires d.onRequestOk == Some(ThrowOnOk)
    requires d.onAction.None? && d.onRequestError.None? && d.onFinish.None?
    requires transport(BuildRequest(d, args, auth, baseUrl)) == Exchange([], Response(resp))
    ensures var s1 := WithStatus(s, d.name, Requesting);
      RequestCall((x: State, e: Event) => Route(table, x, e), s, d, args, auth, baseUrl, transport) ==
        RequestRun([PhaseEvent(d.name, SetRequesting, args)] +
                   [PhaseEvent(d.name, RequestOk, [resp] + args), PhaseEvent(d.name, RequestError, [Str("boom")] + args),
                    PhaseEvent(d.name, Finished, args)],
                   WithStatus(s1, d.name, Error), Some(Sent(BuildRequest(d, args, auth, baseUrl), s1)),
                   Rejected(ErrorRecord(Str("boom"), args)))
  {
    var reduce := (x: State, e: Event) => Route(table, x, e);
    var s1 := WithStatus(s, d.name, Requesting);
    assert reduce(s, PhaseEvent(d.name, SetRequesting, args)) == Normal(s1);
    LemmaOkCallbackThrowSettle(table, d, s1, args, resp);
    var t := Settle(reduce, s1, d.name, args, Response(resp));
    LemmaImmediateAnswerCall(reduce, s, d, args, auth, baseUrl, transport, resp, s1, t);
  }

  /** A namespace whose only descriptor is `d` runs `SetKeyValue` on its slice. */
  lemma LemmaSetKeyNamespaceStep(g: Group, d: Descriptor, slices: map<string, State>, args: seq<Value>)
    requires g.actions == [d] && IsSimple(d) && d.action == Some(SetKeyValue)
    ensures NamespaceStep(g, slices, Event(d.name, args)) == Normal(SliceOf(slices, g.name)["key" := Str("value")])
  {
    LemmaRegisterSingle(d, Entries);
  }

  /** The combined reducer over two namespaces that both hold `d`. */
  lemma LemmaTwoNamespacesSetKey(d: Descriptor, a: string, b: string, slices: map<string, State>, args: seq<Value>)
    requires IsSimple(d) && d.action == Some(SetKeyValue)
    ensures CombinedReduce([Group(a, [d]), Group(b, [d])], slices, Event(d.name, args)) ==
      Normal(map[b := SliceOf(slices, b)["key" := Str("value")]][a := SliceOf(slices, a)["key" := Str("value")]])
  {
    var groups := [Group(a, [d]), Group(b, [d])];
    var e := Event(d.name, args);
    LemmaSetKeyNamespaceStep(groups[0], d, slices, args);
    LemmaSetKeyNamespaceStep(groups[1], d, slices, args);
    var tail := groups[1..];
    assert tail == [Group(b, [d])] && tail[1..] == [];
    assert CombinedReduce(tail, slices, e) == Normal(map[b := SliceOf(slices, b)["key" := Str("value")]]);
  }

  /** Namespaces are not isolated: when two namespaces register the same
      simple name, calling it through the first namespace runs the action in
      both slices. */
  lemma LemmaNamespacesShareEvents(d: Descriptor, a: string, b: string, slices: map<string, State>, args: seq<Value>)
    requires IsSimple(d) && d.action == Some(SetKeyValue)
    requires a != b
    ensures var ns := GenerateSurface(ActionGroups([Group(a, [d]), Group(b, [d])])).namespaces;
      a in ns && CallableName(d.name) in ns[a] && ns[a][CallableName(d.name)] == SimpleCallable(d)
    ensures SimpleCall(NamespacedReducer([Group(a, [d]), Group(b, [d])]), slices, d, args).state ==
      map[a := SliceOf(slices, a)["key" := Str("value")], b := SliceOf(slices, b)["key" := Str("value")]]
  {
    var groups := [Group(a, [d]), Group(b, [d])];
    assert DistinctGroupNames(groups);
    assert GenerateSurface(ActionGroups(groups)).namespaces[a] == BuildCallables([d]) by {
      LemmaNamespacedSurface(groups, 0);
    }
    LemmaRegisterSingle(d, CallableEntries);
    LemmaSharedEventState(d, a, b, slices, args);
  }

  lemma LemmaSharedEventState(d: Descriptor, a: string, b: string, slices: map<string, State>, args: seq<Value>)
    requires IsSimple(d) && d.action == Some(SetKeyValue)
    requires a != b
    ensures SimpleCall(NamespacedReducer([Group(a, [d]), Group(b, [d])]), slices, d, args).state ==
      map[a := SliceOf(slices, a)["key" := Str("value")], b := SliceOf(slices, b)["key" := Str("value")]]
  {
    var groups := [Group(a, [d]), Group(b, [d])];
    var e := Event(d.name, args);
    var sa := SliceOf(slices, a)["key" := Str("value")];
    var sb := SliceOf(slices, b)["key" := Str("value")];
    LemmaTwoNamespacesSetKey(d, a, b, slices, args);
    assert NamespacedReducer(groups)(slices, e) == Normal(map[b := sb][a := sa]);
    LemmaUpdatesCommute(a, b, sa, sb);
  }

  lemma LemmaUpdatesCommute<V>(a: string, b: string, x: V, y: V)
    requires a != b
    ensures map[b := y][a := x] == map[a := x, b := y]
  {
  }

  // ---------------------------------------------------------------------------
  // The empty namespace key.

  /** One property of the handler object `this.actions` in namespaced mode:
      a handler written by a root registration, or the object created for a
      namespace. Both kinds share the object's keys. */
  datatype Slot = HandlerSlot(h: Handler) | TableSlot(t: Table)

  type HandlerObject = map<string, Slot>

  /** The table the reducer of namespace `ns` reads. A handler that replaced
      the namespace's object is a function, which has no own properties named
      like event types, so the reducer then finds nothing. */
  function NamespaceTable(a: HandlerObject, ns: string): Table {
    if ns in a && a[ns].TableSlot? then a[ns].t else map[]
  }

  function AsSlots(t: Table): HandlerObject {
    map k | k in t :: HandlerSlot(t[k])
  }

  /** Registers the entries of `descs` (the handlers, `Entries`) for
      namespace `ns`. The target is the namespace's own object only when the
      key is truthy; otherwise it is the handler object itself. */
  function RegisterInto(a: HandlerObject, ns: string, descs: seq<Descriptor>, entries: Descriptor -> Table): HandlerObject
    decreases |descs|
  {
    if descs == [] then a
    else
      var a' := RegisterInto(a, ns, descs[..|descs| - 1], entries);
      var e := entries(descs[|descs| - 1]);
      if IsTruthy(Str(ns)) then a'[ns := TableSlot(NamespaceTable(a', ns) + e)]
      else a' + AsSlots(e)
  }

  /** Each namespace in order: its object is created empty under its key,
      replacing whatever that key held, then its list is registered. */
  function RegisterGroups(groups: seq<Group>): HandlerObject
    decreases |groups|
  {
    if groups == [] then map[]
    else
      var a := RegisterGroups(groups[..|groups| - 1]);
      var g := groups[|groups| - 1];
      RegisterInto(a[g.name := TableSlot(map[])], g.name, g.actions, Entries)
  }

  /** Under a truthy key the list lands in the namespace's own object, on top
      of what it held; no other key changes. */
  lemma LemmaRegisterIntoNamespace(a: HandlerObject, ns: string, descs: seq<Descriptor>, entries: Descriptor -> Table)
    requires IsTruthy(Str(ns)) && ns in a && a[ns].TableSlot?
    ensures RegisterInto(a, ns, descs, entries).Keys == a.Keys
    ensures RegisterInto(a, ns, descs, entries)[ns] == TableSlot(a[ns].t + Register(descs, entries))
    ensures forall k :: k in a && k != ns ==> RegisterInto(a, ns, descs, entries)[k] == a[k]
  {
    LemmaRegisterIntoFrame(a, ns, descs, entries);
    LemmaRegisterIntoOwnTable(a, ns, descs, entries);
  }

  lemma {:induction false} LemmaRegisterIntoFrame(a: HandlerObject, ns: string, descs: seq<Descriptor>,
                                                  entries: Descriptor -> Table)
    requires IsTruthy(Str(ns)) && ns in a
    ensures RegisterInto(a, ns, descs, entries).Keys == a.Keys
    ensures forall k :: k in a && k != ns ==> RegisterInto(a, ns, descs, entries)[k] == a[k]
    decreases |descs|
  {
    if descs != [] {
      var init := descs[..|descs| - 1];
      LemmaRegisterIntoFrame(a, ns, init, entries);
      var a' := RegisterInto(a, ns, init, entries);
      assert RegisterInto(a, ns, descs, entries) ==
        a'[ns := TableSlot(NamespaceTable(a', ns) + entries(descs[|descs| - 1]))];
    }
  }

  lemma {:induction false} LemmaRegisterIntoOwnTable(a: HandlerObject, ns: string, descs: seq<Descriptor>,
                                                     entries: Descriptor -> Table)
    requires IsTruthy(Str(ns)) && ns in a && a[ns].TableSlot?
    ensures ns in RegisterInto(a, ns, descs, entries)
    ensures RegisterInto(a, ns, descs, entries)[ns] == TableSlot(a[ns].t + Register(descs, entries))
    decreases |descs|
  {
    if descs == [] {
      assert a[ns].t + map[] == a[ns].t;
    } else {
      var init := descs[..|descs| - 1];
      LemmaRegisterIntoOwnTable(a, ns, init, entries);
      var a' := RegisterInto(a, ns, init, entries);
      var e := entries(descs[|descs| - 1]);
      assert RegisterInto(a, ns, descs, entries) == a'[ns := TableSlot(NamespaceTable(a', ns) + e)];
      assert NamespaceTable(a', ns) == a[ns].t + Register(init, entries);
      LemmaRegisterOnTop(a[ns].t, descs, entries);
    }
  }

  /** Under the falsy key `""` the list's handlers are written into the
      handler object itself, replacing any namespace object under the same
      key. */
  lemma {:induction false} LemmaRegisterIntoRoot(a: HandlerObject, ns: string, descs: seq<Descriptor>,
                                                 entries: Descriptor -> Table)
    requires !IsTruthy(Str(ns))
    ensures RegisterInto(a, ns, descs, entries) == a + AsSlots(Register(descs, entries))
    decreases |descs|
  {
    if descs == [] {
      assert a + AsSlots(map[]) == a;
    } else {
      var init := descs[..|descs| - 1];
      var e := entries(descs[|descs| - 1]);
      LemmaRegisterIntoRoot(a, ns, init, entries);
      assert RegisterInto(a, ns, descs, entries) == RegisterInto(a, ns, init, entries) + AsSlots(e);
      assert Register(descs, entries) == Register(init, entries) + e;
      LemmaAsSlotsMerge(Register(init, entries), e);
      LemmaMergeAssociates(a, AsSlots(Register(init, entries)), AsSlots(e));
    }
  }

  lemma LemmaAsSlotsMerge(x: Table, y: Table)
    ensures AsSlots(x + y) == AsSlots(x) + AsSlots(y)
  {
    var l, r := AsSlots(x + y), AsSlots(x) + AsSlots(y);
    assert l.Keys == r.Keys;
    forall k | k in l ensures l[k] == r[k] {
      if k in y {
      }
    }
  }

  /** The namespace registered last holds its own list, or nothing under `""`. */
  lemma LemmaLastGroupTable(groups: seq<Group>)
    requires |groups| > 0
    ensures var g := groups[|groups| - 1];
      && g.name in RegisterGroups(groups)
      && NamespaceTable(RegisterGroups(groups), g.name) == if g.name == "" then map[] else BuildTable(g.actions)
  {
    var g := groups[|groups| - 1];
    var a := RegisterGroups(groups[..|groups| - 1]);
    var a0 := a[g.name := TableSlot(map[])];
    assert RegisterGroups(groups) == RegisterInto(a0, g.name, g.actions, Entries);
    LemmaRegisterIntoFresh(a0, g.name, g.actions, Entries);
  }

  /** Registering into a freshly created object leaves it holding exactly the
      list's entries under a truthy key, and nothing under `""`. */
  lemma LemmaRegisterIntoFresh(a: HandlerObject, ns: string, descs: seq<Descriptor>, entries: Descriptor -> Table)
    requires ns in a && a[ns] == TableSlot(map[])
    ensures ns in RegisterInto(a, ns, descs, entries)
    ensures NamespaceTable(RegisterInto(a, ns, descs, entries), ns) == if ns == "" then map[] else Register(descs, entries)
  {
    if IsTruthy(Str(ns)) {
      LemmaRegisterIntoOwnTable(a, ns, descs, entries);
      assert ns != "";
      assert map[] + Register(descs, entries) == Register(descs, entries);
    } else {
      LemmaRegisterIntoRoot(a, ns, descs, entries);
      assert ns == "";
    }
  }

  /** Registering the last namespace leaves every other key as it was, except
      that a last namespace `""` writes its handlers over the keys they name. */
  lemma LemmaEarlierGroupTable(groups: seq<Group>, k: string)
    requires |groups| > 0 && k != groups[|groups| - 1].name
    requires k in RegisterGroups(groups[..|groups| - 1])
    ensures var g := groups[|groups| - 1];
      && k in RegisterGroups(groups)
      && RegisterGroups(groups)[k] ==
           if g.name == "" && k in BuildTable(g.actions) then HandlerSlot(BuildTable(g.actions)[k])
           else RegisterGroups(groups[..|groups| - 1])[k]
  {
    var g := groups[|groups| - 1];
    var a := RegisterGroups(groups[..|groups| - 1]);
    var a0 := a[g.name := TableSlot(map[])];
    assert RegisterGroups(groups) == RegisterInto(a0, g.name, g.actions, Entries);
    if IsTruthy(Str(g.name)) {
      LemmaRegisterIntoFrame(a0, g.name, g.actions, Entries);
    } else {
      LemmaRegisterIntoRoot(a0, g.name, g.actions, Entries);
    }
  }

  /** A namespace after position i is `""` and registers a handler under key
      `k`, which then replaces the object stored under `k`. Peels the last
      namespace off, as `RegisterGroups` does. */
  predicate ShadowedLater(groups: seq<Group>, i: int, k: string)
    decreases |groups|
  {
    0 <= i < |groups| - 1 &&
    (ShadowedLater(groups[..|groups| - 1], i, k) || Shadows(groups[|groups| - 1], k))
  }

  /** Namespace `g` is `""` and registers a handler under key `k`. */
  predicate Shadows(g: Group, k: string) {
    g.name == "" && k in BuildTable(g.actions)
  }

  /** As written, the reducer of a namespace with a non-empty key consults
      that namespace's own table unless a later namespace `""` registered a
      handler under the same key; the reducer of `""` always finds nothing. */
  lemma {:induction false} LemmaRegisteredTables(groups: seq<Group>, i: int)
    requires DistinctGroupNames(groups)
    requires 0 <= i < |groups|
    ensures groups[i].name in RegisterGroups(groups)
    ensures NamespaceTable(RegisterGroups(groups), groups[i].name) ==
      if groups[i].name == "" || ShadowedLater(groups, i, groups[i].name) then map[] else BuildTable(groups[i].actions)
    decreases |groups|
  {
    var n := |groups| - 1;
    if i < n {
      var init := groups[..n];
      assert groups[i] == init[i];
      LemmaDistinctInit(groups);
      LemmaRegisteredTables(init, i);
      LemmaEarlierGroupTable(groups, groups[i].name);
    } else {
      LemmaLastGroupTable(groups);
    }
  }

  lemma LemmaDistinctInit(groups: seq<Group>)
    requires |groups| > 0 && DistinctGroupNames(groups)
    ensures DistinctGroupNames(groups[..|groups| - 1])
  {
    var init := groups[..|groups| - 1];
    forall a, b | 0 <= a < b < |init| ensures init[a].name != init[b].name {
      assert init[a] == groups[a] && init[b] == groups[b];
    }
  }

  /** Under the namespace key `""` a simple action never runs as written: its
      handler is written into the handler object, and the reducer of `""`
      finds nothing. The per-namespace table the rest of the model uses runs
      it. */
  lemma LemmaEmptyNamespaceDropsActions(d: Descriptor, slice: State, args: seq<Value>)
    requires IsSimple(d) && d.action == Some(SetKeyValue)
    ensures RegisterGroups([Group("", [d])])[d.name] == HandlerSlot(SimpleHandler(d))
    ensures Route(NamespaceTable(RegisterGroups([Group("", [d])]), ""), slice, Event(d.name, args)) == Normal(slice)
    ensures NamespaceStep(Group("", [d]), map["" := slice], Event(d.name, args)) == Normal(slice["key" := Str("value")])
    ensures slice == map[] ==>
      Route(NamespaceTable(RegisterGroups([Group("", [d])]), ""), slice, Event(d.name, args)) !=
      NamespaceStep(Group("", [d]), map["" := slice], Event(d.name, args))
  {
    var groups := [Group("", [d])];
    LemmaRegisteredTables(groups, 0);
    assert groups[..0] == [];
    LemmaRegisterIntoRoot(map["" := TableSlot(map[])], "", [d], Entries);
    LemmaRegisterSingle(d, Entries);
    LemmaSetKeyNamespaceStep(Group("", [d]), d, map["" := slice], args);
    assert "key" in slice["key" := Str("value")];
  }

  /** A later namespace `""` that registers a handler named like an earlier
      namespace replaces that namespace's object: the earlier namespace's own
      actions never run. */
  lemma LemmaEmptyNamespaceShadows(x: Descriptor, d: Descriptor, ns: string)
    requires ns != "" && IsSimple(d) && d.name == ns
    ensures NamespaceTable(RegisterGroups([Group(ns, [x]), Group("", [d])]), ns) == map[]
  {
    var groups := [Group(ns, [x]), Group("", [d])];
    assert Shadows(groups[1], ns) by {
      LemmaRegisterSingle(d, Entries);
    }
    assert ShadowedLater(groups, 0, ns);
    LemmaRegisteredTables(groups, 0);
  }

  /** A namespace registered after the namespace `""` creates its object
      afresh, replacing a handler of `""` under the same key: its own actions
      run. */
  lemma LemmaLaterNamespaceReplacesHandler(x: Descriptor, d: Descriptor, ns: string)
    requires ns != "" && IsSimple(d) && d.name == ns
    ensures NamespaceTable(RegisterGroups([Group("", [d]), Group(ns, [x])]), ns) == BuildTable([x])
  {
    LemmaRegisteredTables([Group("", [d]), Group(ns, [x])], 1);
  }

  /** As written, two namespaces with distinct non-empty keys that both hold
      `d` both route `d`'s event type to `d`'s handler. */
  lemma LemmaNamespacesShareEventsAsWritten(d: Descriptor, a: string, b: string)
    requires IsSimple(d) && a != "" && b != "" && a != b
    ensures var o := RegisterGroups([Group(a, [d]), Group(b, [d])]);
      && d.name in NamespaceTable(o, a) && NamespaceTable(o, a)[d.name] == SimpleHandler(d)
      && d.name in NamespaceTable(o, b) && NamespaceTable(o, b)[d.name] == SimpleHandler(d)
  {
    var groups := [Group(a, [d]), Group(b, [d])];
    LemmaRegisterSingle(d, Entries);
    assert !Shadows(groups[1], a);
    assert !ShadowedLater(groups, 0, a);
    LemmaRegisteredTables(groups, 0);
    LemmaRegisteredTables(groups, 1);
  }
}

=== FILE: handlers.dfy ===
/** The state handlers registered for each descriptor: six lifecycle handlers
    for a request descriptor, one handler for a simple descriptor.

    Handlers are kept first-order: a `Handler` names the descriptor and the
    phase, and `Apply` runs it. A handler whose callback throws throws, so the
    status it set is discarded together with the rest of its work.
 */
module Handlers {
  import opened JsValues
  import opened Names
  import opened Descriptors

  datatype Status = Requesting | Ok | Error

  function StatusText(st: Status): Value {
    match st
    case Requesting => Str("REQUESTING")
    case Ok => Str("OK")
    case Error => Str("ERROR")
  }

  /** The state key `<NAME>_STATUS` of a request descriptor. */
  function StatusKey(name: string): string {
    name + "_STATUS"
  }

  /** `state.set('<NAME>_STATUS', ...)`. */
  function WithStatus(s: State, name: string, st: Status): State {
    s[StatusKey(name) := StatusText(st)]
  }

  /** `s'` is `s` with only the status key of `name` overwritten by `st`. */
  predicate StatusOnly(s: State, s': State, name: string, st: Status) {
    && s'.Keys == s.Keys + {StatusKey(name)}
    && s'[StatusKey(name)] == StatusText(st)
    && forall k :: k in s && k != StatusKey(name) ==> s'[k] == s[k]
  }

  /** The status a lifecycle phase writes before its callback runs. */
  function StatusSetBy(p: Phase): Option<Status> {
    match p
    case SetRequesting => Some(Requesting)
    case RequestOk => Some(Ok)
    case RequestError => Some(Error)
    case _ => None
  }

  datatype Handler = Lifecycle(d: Descriptor, phase: Phase) | SimpleHandler(d: Descriptor)

  /** Whether the user supplied the callback the handler delegates to. */
  predicate HasCallback(h: Handler) {
    match h
    case SimpleHandler(d) => d.action.Some?
    case Lifecycle(d, p) =>
      match p
      case SetRequesting => d.onAction.Some?
      case UploadProgress => d.onUploadProgress.Some?
      case DownloadProgress => d.onDownloadProgress.Some?
      case RequestOk => d.onRequestOk.Some?
      case RequestError => d.onRequestError.Some?
      case Finished => d.onFinish.Some?
  }

  function RunCallback(cb: Option<Callback>, s: State, args: seq<Value>): Completion<State> {
    match cb
    case None => Normal(s)
    case Some(f) => f(s, args)
  }

  /** Shifts the first argument off and hands it to the callback separately. */
  function RunShifted(cb: Option<ResultCallback>, s: State, args: seq<Value>): Completion<State> {
    match cb
    case None => Normal(s)
    case Some(f) => f(s, First(args), Rest(args))
  }

  /** Runs handler `h` on `[state, ...args]`.

      Without a callback, the Requesting, OK and Error handlers change nothing
      but the status key, and every other handler is the identity. */
  function Apply(h: Handler, s: State, args: seq<Value>): (r: Completion<State>)
    ensures !HasCallback(h) && h.Lifecycle? && StatusSetBy(h.phase).Some? ==>
      r.Normal? && StatusOnly(s, r.value, h.d.name, StatusSetBy(h.phase).value)
    ensures !HasCallback(h) && !(h.Lifecycle? && StatusSetBy(h.phase).Some?) ==> r == Normal(s)
  {
    match h
    case SimpleHandler(d) => RunCallback(d.action, s, args)
    case Lifecycle(d, p) =>
      match p
      case SetRequesting => RunCallback(d.onAction, WithStatus(s, d.name, Requesting), args)
      case UploadProgress => RunShifted(d.onUploadProgress, s, args)
      case DownloadProgress => RunShifted(d.onDownloadProgress, s, args)
      case RequestOk => RunShifted(d.onRequestOk, WithStatus(s, d.name, Ok), args)
      case RequestError => RunShifted(d.onRequestError, WithStatus(s, d.name, Error), args)
      case Finished => RunCallback(d.onFinish, s, args)
  }

  /** The Requesting, OK and Error handlers hand their callback a state whose
      status key already holds REQUESTING, OK or ERROR and which otherwise
      equals the incoming state. The OK and Error callbacks receive the first
      argument (the response or the error) apart from the remaining ones; the
      Requesting callback receives all arguments. */
  lemma LemmaStatusHandlersCallBack(d: Descriptor, s: State, args: seq<Value>)
    ensures StatusOnly(s, WithStatus(s, d.name, Requesting), d.name, Requesting)
    ensures StatusOnly(s, WithStatus(s, d.name, Ok), d.name, Ok)
    ensures StatusOnly(s, WithStatus(s, d.name, Error), d.name, Error)
    ensures d.onAction.Some? ==>
      Apply(Lifecycle(d, SetRequesting), s, args) == d.onAction.value(WithStatus(s, d.name, Requesting), args)
    ensures d.onRequestOk.Some? ==>
      Apply(Lifecycle(d, RequestOk), s, args) == d.onRequestOk.value(WithStatus(s, d.name, Ok), First(args), Rest(args))
    ensures d.onRequestError.Some? ==>
      Apply(Lifecycle(d, RequestError), s, args) == d.onRequestError.value(WithStatus(s, d.name, Error), First(args), Rest(args))
  {
  }

  /** The progress and Finished handlers never write the status key: their
      callback sees the incoming state as it is. So does a simple handler's
      `action`. */
  lemma LemmaPassThroughHandlersCallBack(d: Descriptor, s: State, args: seq<Value>)
    ensures d.onUploadProgress.Some? ==>
      Apply(Lifecycle(d, UploadProgress), s, args) == d.onUploadProgress.value(s, First(args), Rest(args))
    ensures d.onDownloadProgress.Some? ==>
      Apply(Lifecycle(d, DownloadProgress), s, args) == d.onDownloadProgress.value(s, First(args), Rest(args))
    ensures d.onFinish.Some? ==>
      Apply(Lifecycle(d, Finished), s, args) == d.onFinish.value(s, args)
    ensures d.action.Some? ==>
      Apply(SimpleHandler(d), s, args) == d.action.value(s, args)
  {
  }

  /** The status written last wins: it does not matter what the status was
      before a status handler runs. */
  lemma LemmaStatusOverwrites(s: State, name: string, a: Status, b: Status)
    ensures WithStatus(WithStatus(s, name, a), name, b) == WithStatus(s, name, b)
  {
  }
}

=== FILE: js_values.dfy ===
/** The JavaScript values the generation engine inspects or passes around.

    Only the distinctions the engine actually makes are kept: truthiness of the
    first call argument, the shape of settlement records, and string-valued
    status flags. Numbers are unbounded integers (floating point and NaN are not
    modelled). A thrown JavaScript exception is a `Throw` completion.
 */
module JsValues {

  datatype Option<+T> = None | Some(value: T)

  datatype Value =
    | Undefined
    | Null
    | Bool(b: bool)
    | Num(n: int)
    | Str(s: string)
    | Arr(items: seq<Value>)
    | Obj(fields: map<string, Value>)

  /** JavaScript truthiness: `undefined`, `null`, `false`, `0` and `""` are falsy. */
  predicate IsTruthy(v: Value) {
    match v
    case Undefined => false
    case Null => false
    case Bool(b) => b
    case Num(n) => n != 0
    case Str(s) => s != ""
    case Arr(_) => true
    case Obj(_) => true
  }

  /** The outcome of running JavaScript code: a normal value or a thrown error. */
  datatype Completion<+T> = Normal(value: T) | Throw(error: Value)

  /** What `args.shift()` returns: the first element, or `undefined` when empty. */
  function First(args: seq<Value>): Value {
    if |args| > 0 then args[0] else Undefined
  }

  /** What remains of `args` after `args.shift()`. */
  function Rest(args: seq<Value>): seq<Value> {
    if |args| > 0 then args[1..] else []
  }

  /** Shifting a non-empty argument list and spreading it back loses nothing. */
  lemma LemmaShiftRoundTrip(args: seq<Value>)
    requires |args| > 0
    ensures [First(args)] + Rest(args) == args
  {
  }
}

=== FILE: names.dfy ===
/** Name derivation: from a descriptor name such as `FETCH_ITEM` to the name of
    the generated callable (`fetchItem`) and the six lifecycle event types
    (`FETCH_ITEM_SET_REQUESTING`, ..., `FETCH_ITEM_FINISHED`).

    Case mapping is ASCII only.
 */
module Names {

  predicate IsUpper(c: char) { 'A' <= c <= 'Z' }
  predicate IsLower(c: char) { 'a' <= c <= 'z' }
  predicate IsLetter(c: char) { IsUpper(c) || IsLower(c) }

  function LowerChar(c: char): char {
    if IsUpper(c) then (c as int + 32) as char else c
  }

  function UpperChar(c: char): char {
    if IsLower(c) then (c as int - 32) as char else c
  }

  /** `String.prototype.toLowerCase`, restricted to ASCII letters. */
  function ToLower(s: string): string {
    if s == [] then [] else [LowerChar(s[0])] + ToLower(s[1..])
  }

  function ToUpper(s: string): string {
    if s == [] then [] else [UpperChar(s[0])] + ToUpper(s[1..])
  }

  predicate NoLowerCase(s: string) {
    forall i :: 0 <= i < |s| ==> !IsLower(s[i])
  }

  predicate NoUpperCase(s: string) {
    forall i :: 0 <= i < |s| ==> !IsUpper(s[i])
  }

  /** `s.replace(/_([a-z])/g, g => g[1].toUpperCase())`: scanning left to right,
      every underscore directly followed by a lower-case letter is dropped and
      the letter upper-cased; matches do not overlap, and any other underscore
      (before a digit, another underscore, or at the end) is kept. */
  function CamelizeUnderscores(s: string): (r: string)
    ensures |r| <= |s|
    ensures '_' !in s ==> r == s
    decreases |s|
  {
    if |s| >= 2 && s[0] == '_' && IsLower(s[1]) then
      [UpperChar(s[1])] + CamelizeUnderscores(s[2..])
    else if s == [] then
      []
    else
      [s[0]] + CamelizeUnderscores(s[1..])
  }

  /** The name under which a descriptor's callable is attached. */
  function CallableName(name: string): string {
    CamelizeUnderscores(ToLower(name))
  }

  /** Inverse of `CallableName` on names without lower-case letters: every
      upper-case letter becomes `_` and the letter, everything else is
      upper-cased. */
  function SnakeName(c: string): string {
    if c == [] then []
    else (if IsUpper(c[0]) then ['_', c[0]] else [UpperChar(c[0])]) + SnakeName(c[1..])
  }

  lemma {:induction false} LemmaToLowerHasNoUpper(s: string)
    ensures NoUpperCase(ToLower(s))
  {
    if s != [] {
      LemmaToLowerHasNoUpper(s[1..]);
      var t := ToLower(s);
      forall i | 0 <= i < |t|
        ensures !IsUpper(t[i])
      {
        if i > 0 {
          assert t[i] == ToLower(s[1..])[i - 1];
        }
      }
    }
  }

  lemma {:induction false} LemmaUpperOfLower(s: string)
    requires NoLowerCase(s)
    ensures ToUpper(ToLower(s)) == s
  {
    if s != [] {
      assert NoLowerCase(s[1..]) by {
        forall i | 0 <= i < |s[1..]| ensures !IsLower(s[1..][i]) {
          assert s[1..][i] == s[i + 1];
        }
      }
      LemmaUpperOfLower(s[1..]);
      assert !IsLower(s[0]);
    }
  }

  lemma LemmaSnakeCons(c: char, t: string)
    ensures SnakeName([c] + t) == (if IsUpper(c) then ['_', c] else [UpperChar(c)]) + SnakeName(t)
  {
    assert ([c] + t)[1..] == t;
  }

  lemma {:induction false} LemmaSnakeOfCamelize(l: string)
    requires NoUpperCase(l)
    ensures SnakeName(CamelizeUnderscores(l)) == ToUpper(l)
    decreases |l|
  {
    if |l| >= 2 && l[0] == '_' && IsLower(l[1]) {
      var a := l[1];
      var tail := CamelizeUnderscores(l[2..]);
      LemmaNoUpperSuffix(l, 2);
      LemmaSnakeOfCamelize(l[2..]);
      assert CamelizeUnderscores(l) == [UpperChar(a)] + tail;
      assert IsUpper(UpperChar(a));
      LemmaSnakeCons(UpperChar(a), tail);
      assert SnakeName(CamelizeUnderscores(l)) == ['_', UpperChar(a)] + ToUpper(l[2..]);
      assert l[1..][1..] == l[2..];
      assert ToUpper(l[1..]) == [UpperChar(a)] + ToUpper(l[2..]);
      assert ToUpper(l) == ['_'] + ToUpper(l[1..]);
    } else if l != [] {
      var tail := CamelizeUnderscores(l[1..]);
      LemmaNoUpperSuffix(l, 1);
      LemmaSnakeOfCamelize(l[1..]);
      assert CamelizeUnderscores(l) == [l[0]] + tail;
      assert !IsUpper(l[0]);
      LemmaSnakeCons(l[0], tail);
      assert ToUpper(l) == [UpperChar(l[0])] + ToUpper(l[1..]);
    }
  }

  lemma LemmaNoUpperSuffix(l: string, k: nat)
    requires NoUpperCase(l) && k <= |l|
    ensures NoUpperCase(l[k..])
  {
    forall i | 0 <= i < |l[k..]| ensures !IsUpper(l[k..][i]) {
      assert l[k..][i] == l[i + k];
    }
  }

  /** For names without lower-case letters (the upper-snake-case convention,
      digits and other symbols allowed), the descriptor name can be recovered
      from its callable name. */
  lemma LemmaCallableNameRoundTrip(name: string)
    requires NoLowerCase(name)
    ensures SnakeName(CallableName(name)) == name
  {
    LemmaToLowerHasNoUpper(name);
    LemmaSnakeOfCamelize(ToLower(name));
    LemmaUpperOfLower(name);
  }

  /** Hence two distinct upper-snake-case descriptors never compete for the same
      callable name. */
  lemma LemmaCallableNameInjective(a: string, b: string)
    requires NoLowerCase(a) && NoLowerCase(b)
    requires CallableName(a) == CallableName(b)
    ensures a == b
  {
    LemmaCallableNameRoundTrip(a);
    LemmaCallableNameRoundTrip(b);
  }

  // ---------------------------------------------------------------------------
  // An independent reference: lower camel case over underscore-separated words.

  /** A word that follows an underscore: it starts with a letter and holds no
      underscore. */
  predicate IsTailWord(w: string) {
    |w| > 0 && IsLetter(w[0]) && '_' !in w
  }

  /** `"_" + ws[0] + "_" + ws[1] + ...` */
  function UnderscoreJoin(ws: seq<string>): string {
    if ws == [] then "" else "_" + ws[0] + UnderscoreJoin(ws[1..])
  }

  /** A word with its first letter upper-cased and the rest lower-cased. */
  function Capitalize(w: string): string
    requires |w| > 0
  {
    [UpperChar(LowerChar(w[0]))] + ToLower(w[1..])
  }

  function CapitalizedJoin(ws: seq<string>): string
    requires forall i :: 0 <= i < |ws| ==> IsTailWord(ws[i])
  {
    if ws == [] then ""
    else
      assert IsTailWord(ws[0]);
      Capitalize(ws[0]) + CapitalizedJoin(ws[1..])
  }

  lemma {:induction false} LemmaToLowerAppend(a: string, b: string)
    ensures ToLower(a + b) == ToLower(a) + ToLower(b)
  {
    if a != [] {
      assert (a + b)[1..] == a[1..] + b;
      LemmaToLowerAppend(a[1..], b);
    } else {
      assert a + b == b;
    }
  }

  lemma {:induction false} LemmaToLowerKeepsUnderscores(s: string)
    ensures ('_' in ToLower(s)) <==> ('_' in s)
  {
    if s != [] {
      LemmaToLowerKeepsUnderscores(s[1..]);
      assert s == [s[0]] + s[1..];
    }
  }

  /** Text without underscores passes through the replacement unchanged. */
  lemma {:induction false} LemmaCamelizeSkipsPlainPrefix(u: string, v: string)
    requires '_' !in u
    ensures CamelizeUnderscores(u + v) == u + CamelizeUnderscores(v)
  {
    if u != [] {
      assert u[0] in u;
      assert (u + v)[0] == u[0];
      assert (u + v)[1..] == u[1..] + v;
      assert '_' !in u[1..];
      LemmaCamelizeSkipsPlainPrefix(u[1..], v);
      assert CamelizeUnderscores(u + v) == [u[0]] + CamelizeUnderscores(u[1..] + v);
      assert u == [u[0]] + u[1..];
    } else {
      assert u + v == v;
    }
  }

  /** Lower-casing `_w...` where `w` starts with a letter yields `_`, a
      lower-case letter, and the lower-cased remainder. */
  lemma LemmaLowerTailWord(w: string, rest: string)
    requires IsTailWord(w)
    ensures ToLower("_" + w + rest) == ['_', LowerChar(w[0])] + (ToLower(w[1..]) + ToLower(rest))
  {
    var t := "_" + w + rest;
    assert t[0] == '_' && t[1..] == w + rest;
    LemmaToLowerAppend(w, rest);
    assert w == [w[0]] + w[1..];
    assert ToLower(w) == [LowerChar(w[0])] + ToLower(w[1..]);
  }

  lemma LemmaCamelizeUnderscoreLetter(x: char, u: string)
    requires IsLower(x)
    ensures CamelizeUnderscores(['_', x] + u) == [UpperChar(x)] + CamelizeUnderscores(u)
  {
    var t := ['_', x] + u;
    assert t[0] == '_' && t[1] == x && t[2..] == u;
  }

  lemma {:induction false} LemmaCamelizeTailWords(ws: seq<string>)
    requires forall i :: 0 <= i < |ws| ==> IsTailWord(ws[i])
    ensures CamelizeUnderscores(ToLower(UnderscoreJoin(ws))) == CapitalizedJoin(ws)
  {
    if ws != [] {
      var w := ws[0];
      assert IsTailWord(w);
      var rest := UnderscoreJoin(ws[1..]);
      var lw := ToLower(w[1..]);
      var lr := ToLower(rest);
      var x := LowerChar(w[0]);
      calc {
        CamelizeUnderscores(ToLower(UnderscoreJoin(ws)));
        CamelizeUnderscores(ToLower("_" + w + rest));
        { LemmaLowerTailWord(w, rest); }
        CamelizeUnderscores(['_', x] + (lw + lr));
        { LemmaCamelizeUnderscoreLetter(x, lw + lr); }
        [UpperChar(x)] + CamelizeUnderscores(lw + lr);
        { assert '_' !in w[1..];
          LemmaToLowerKeepsUnderscores(w[1..]);
          LemmaCamelizeSkipsPlainPrefix(lw, lr); }
        [UpperChar(x)] + (lw + CamelizeUnderscores(lr));
        { LemmaCamelizeTailWords(ws[1..]); }
        [UpperChar(x)] + (lw + CapitalizedJoin(ws[1..]));
        Capitalize(w) + CapitalizedJoin(ws[1..]);
        CapitalizedJoin(ws);
      }
    }
  }

  /** The callable name of an underscore-separated name is its lower camel case
      form: the first word lower-cased, every following word capitalized. */
  lemma LemmaCallableNameIsLowerCamel(first: string, ws: seq<string>)
    requires '_' !in first
    requires forall i :: 0 <= i < |ws| ==> IsTailWord(ws[i])
    ensures CallableName(first + UnderscoreJoin(ws)) == ToLower(first) + CapitalizedJoin(ws)
  {
    LemmaToLowerAppend(first, UnderscoreJoin(ws));
    LemmaToLowerKeepsUnderscores(first);
    LemmaCamelizeSkipsPlainPrefix(ToLower(first), ToLower(UnderscoreJoin(ws)));
    LemmaCamelizeTailWords(ws);
  }

  lemma {:induction false} LemmaToLowerPointwise(s: string)
    ensures |ToLower(s)| == |s|
    ensures forall i :: 0 <= i < |s| ==> ToLower(s)[i] == LowerChar(s[i])
  {
    if s != [] {
      LemmaToLowerPointwise(s[1..]);
    }
  }

  /** `SIMPLE_ACTION` becomes `simpleAction`. */
  lemma LemmaSimpleActionName()
    ensures CallableName("SIMPLE_ACTION") == "simpleAction"
  {
    LemmaActionWord();
    LemmaLowerSimple();
    LemmaCapitalizedAction();
    LemmaCallableNameIsLowerCamel("SIMPLE", ["ACTION"]);
    LemmaSimpleActionSpelling();
  }

  lemma LemmaSimpleActionSpelling()
    ensures "SIMPLE" + "_ACTION" == "SIMPLE_ACTION"
    ensures "simple" + "Action" == "simpleAction"
  {
  }

  lemma LemmaActionWord()
    ensures forall i :: 0 <= i < |["ACTION"]| ==> IsTailWord(["ACTION"][i])
    ensures UnderscoreJoin(["ACTION"]) == "_ACTION"
  {
    var ws := ["ACTION"];
    assert IsTailWord(ws[0]) by { assert "ACTION"[0] == 'A'; }
    assert ws[1..] == [];
  }

  lemma LemmaLowerSimple()
    ensures '_' !in "SIMPLE"
    ensures ToLower("SIMPLE") == "simple"
  {
    LemmaToLowerPointwise("SIMPLE");
  }

  lemma LemmaCapitalizedAction()
    ensures CapitalizedJoin(["ACTION"]) == "Action"
  {
    var ws := ["ACTION"];
    assert Capitalize("ACTION") == "Action" by {
      LemmaToLowerPointwise("CTION");
      assert "ACTION"[1..] == "CTION";
    }
    assert ws[1..] == [];
  }

  /** An underscore before a digit survives: `A_1` becomes `a_1`. */
  lemma LemmaDigitUnderscoreName()
    ensures CallableName("A_1") == "a_1"
  {
    LemmaToLowerPointwise("A_1");
    assert ToLower("A_1") == "a_1";
    assert "_1"[1..] == "1";
    assert "a_1"[1..] == "_1";
    assert CamelizeUnderscores("1") == "1";
    assert CamelizeUnderscores("_1") == "_1";
  }

  // ---------------------------------------------------------------------------
  // Lifecycle event types.

  datatype Phase =
    | SetRequesting
    | UploadProgress
    | DownloadProgress
    | RequestOk
    | RequestError
    | Finished

  function Suffix(p: Phase): string {
    match p
    case SetRequesting => "_SET_REQUESTING"
    case UploadProgress => "_UPLOAD_PROGRESS"
    case DownloadProgress => "_DOWNLOAD_PROGRESS"
    case RequestOk => "_REQUEST_OK"
    case RequestError => "_REQUEST_ERROR"
    case Finished => "_FINISHED"
  }

  /** The event type dispatched for phase `p` of the descriptor named `name`. */
  function EventType(name: string, p: Phase): string {
    name + Suffix(p)
  }

  lemma LemmaCharFromEnd(x: string, s: string, k: nat)
    requires 0 < k <= |s|
    ensures (x + s)[|x + s| - k] == s[|s| - k]
  {
  }

  /** The last character of each suffix. */
  function LastMark(p: Phase): char {
    match p
    case SetRequesting => 'G'
    case UploadProgress => 'S'
    case DownloadProgress => 'S'
    case RequestOk => 'K'
    case RequestError => 'R'
    case Finished => 'D'
  }

  lemma LemmaSuffixLastMark(p: Phase)
    ensures |Suffix(p)| >= 9 && Suffix(p)[|Suffix(p)| - 1] == LastMark(p)
  {
    match p
    case SetRequesting => assert "_SET_REQUESTING"[14] == 'G';
    case UploadProgress => assert "_UPLOAD_PROGRESS"[15] == 'S';
    case DownloadProgress => assert "_DOWNLOAD_PROGRESS"[17] == 'S';
    case RequestOk => assert "_REQUEST_OK"[10] == 'K';
    case RequestError => assert "_REQUEST_ERROR"[13] == 'R';
    case Finished => assert "_FINISHED"[8] == 'D';
  }

  /** The two progress suffixes end alike; the fourteenth character from the
      end tells them apart. */
  lemma LemmaProgressMark(p: Phase)
    requires p == UploadProgress || p == DownloadProgress
    ensures |Suffix(p)| >= 14
    ensures Suffix(p)[|Suffix(p)| - 14] == if p == UploadProgress then 'P' else 'N'
  {
    if p == UploadProgress {
      assert "_UPLOAD_PROGRESS"[2] == 'P';
    } else {
      assert "_DOWNLOAD_PROGRESS"[4] == 'N';
    }
  }

  /** Two event types that are equal have the same suffix. */
  lemma LemmaSameSuffix(a: string, b: string, p: Phase, q: Phase)
    requires a + Suffix(p) == b + Suffix(q)
    ensures p == q
  {
    var sp, sq := Suffix(p), Suffix(q);
    var w := a + sp;
    LemmaSuffixLastMark(p);
    LemmaSuffixLastMark(q);
    LemmaCharFromEnd(a, sp, 1);
    LemmaCharFromEnd(b, sq, 1);
    assert LastMark(p) == w[|w| - 1] == LastMark(q);
    if LastMark(p) == 'S' {
      LemmaProgressMark(p);
      LemmaProgressMark(q);
      LemmaCharFromEnd(a, sp, 14);
      LemmaCharFromEnd(b, sq, 14);
      assert sp[|sp| - 14] == w[|w| - 14] == sq[|sq| - 14];
    }
    LemmaMarksDetermine(p, q);
  }

  /** The last mark tells the phases apart, except the two progress phases. */
  lemma LemmaMarksDetermine(p: Phase, q: Phase)
    requires LastMark(p) == LastMark(q)
    requires LastMark(p) == 'S' ==> (p == UploadProgress) == (q == UploadProgress)
    ensures p == q
  {
  }

  /** An event type determines both the descriptor name and the phase: no
      suffix ends another suffix, so even descriptors with different names
      never produce the same event type for different phases. */
  lemma LemmaEventTypeInjective(a: string, b: string, p: Phase, q: Phase)
    requires EventType(a, p) == EventType(b, q)
    ensures a == b && p == q
  {
    LemmaSameSuffix(a, b, p, q);
    var t := a + Suffix(p);
    assert |a| == |b|;
    assert a == t[..|a|];
    assert b == t[..|b|];
  }

  /** The names `generateDerivedActionsNames` returns for one descriptor. */
  datatype DerivedNames = DerivedNames(
    functionName: string,
    setRequesting: string,
    uploadProgress: string,
    downloadProgress: string,
    requestOk: string,
    requestError: string,
    finished: string)
  {
    function TypeOf(p: Phase): string {
      match p
      case SetRequesting => setRequesting
      case UploadProgress => uploadProgress
      case DownloadProgress => downloadProgress
      case RequestOk => requestOk
      case RequestError => requestError
      case Finished => finished
    }
  }

  /** The six event types are pairwise distinct, each one is the name followed
      by its phase's suffix, and none equals the name itself (the event type of
      a simple descriptor with that name). */
  function DeriveNames(name: string): (r: DerivedNames)
    ensures forall p, q :: r.TypeOf(p) == r.TypeOf(q) ==> p == q
    ensures forall p :: r.TypeOf(p) == EventType(name, p) && r.TypeOf(p) != name
    ensures r.functionName == CallableName(name)
  {
    var r := DerivedNames(
      CallableName(name),
      EventType(name, SetRequesting),
      EventType(name, UploadProgress),
      EventType(name, DownloadProgress),
      EventType(name, RequestOk),
      EventType(name, RequestError),
      EventType(name, Finished));
    LemmaDerivedNames(name, r);
    r
  }

  lemma LemmaDerivedNames(name: string, r: DerivedNames)
    requires r == DerivedNames(CallableName(name),
      EventType(name, SetRequesting), EventType(name, UploadProgress), EventType(name, DownloadProgress),
      EventType(name, RequestOk), EventType(name, RequestError), EventType(name, Finished))
    ensures forall p, q :: r.TypeOf(p) == r.TypeOf(q) ==> p == q
    ensures forall p :: r.TypeOf(p) == EventType(name, p) && r.TypeOf(p) != name
  {
    forall p ensures r.TypeOf(p) == EventType(name, p) && r.TypeOf(p) != name {
      match p {
        case SetRequesting =>
        case UploadProgress =>
        case DownloadProgress =>
        case RequestOk =>
        case RequestError =>
        case Finished =>
      }
      LemmaSuffixLastMark(p);
      assert |EventType(name, p)| > |name|;
    }
    forall p, q | r.TypeOf(p) == r.TypeOf(q)
      ensures p == q
    {
      LemmaEventTypeInjective(name, name, p, q);
    }
  }
}

=== FILE: reducers.dfy ===
/** The handler tables and the reducers that route on them.

    Flat mode builds one table from the descriptor list; namespaced mode builds
    one table per namespace and combines the namespace reducers the way
    `combineReducers` does: every namespace reducer sees every event, on its own
    slice of the state, in key order.
 */
module Reducers {
  import opened JsValues
  import opened Names
  import opened Descriptors
  import opened Handlers
  import opened Store
  import opened Registry

  type Table = map<string, Handler>

  /** The six event types of the descriptor named `name`. */
  function LifecycleTypes(name: string): set<string> {
    {EventType(name, SetRequesting), EventType(name, UploadProgress), EventType(name, DownloadProgress),
     EventType(name, RequestOk), EventType(name, RequestError), EventType(name, Finished)}
  }

  /** The six lifecycle handlers of a request descriptor, each under the event
      type `generateDerivedActionsNames` derives for its phase; no handler is
      overwritten by another. */
  function LifecycleEntries(d: Descriptor): (t: Table)
    ensures t.Keys == LifecycleTypes(d.name)
    ensures forall p :: EventType(d.name, p) in t && t[EventType(d.name, p)] == Lifecycle(d, p)
  {
    var n := DeriveNames(d.name);
    var f := (p: Phase) => Lifecycle(d, p);
    var t := map[
      n.setRequesting := f(SetRequesting),
      n.uploadProgress := f(UploadProgress),
      n.downloadProgress := f(DownloadProgress),
      n.requestOk := f(RequestOk),
      n.requestError := f(RequestError),
      n.finished := f(Finished)];
    LemmaLifecycleEntries(d.name, n, f, t);
    t
  }

  /** A table keyed by the six derived names holds one entry per phase. */
  lemma LemmaLifecycleEntries<V>(name: string, n: DerivedNames, f: Phase -> V, t: map<string, V>)
    requires n == DeriveNames(name)
    requires t == map[
      n.setRequesting := f(SetRequesting),
      n.uploadProgress := f(UploadProgress),
      n.downloadProgress := f(DownloadProgress),
      n.requestOk := f(RequestOk),
      n.requestError := f(RequestError),
      n.finished := f(Finished)]
    ensures t.Keys == LifecycleTypes(name)
    ensures forall p :: EventType(name, p) in t && t[EventType(name, p)] == f(p)
  {
    var a, b, c := EventType(name, SetRequesting), EventType(name, UploadProgress), EventType(name, DownloadProgress);
    var x, y, z := EventType(name, RequestOk), EventType(name, RequestError), EventType(name, Finished);
    assert n.setRequesting == a by { assert n.TypeOf(SetRequesting) == a; }
    assert n.uploadProgress == b by { assert n.TypeOf(UploadProgress) == b; }
    assert n.downloadProgress == c by { assert n.TypeOf(DownloadProgress) == c; }
    assert n.requestOk == x by { assert n.TypeOf(RequestOk) == x; }
    assert n.requestError == y by { assert n.TypeOf(RequestError) == y; }
    assert n.finished == z by { assert n.TypeOf(Finished) == z; }
    assert t.Keys == {a, b, c, x, y, z};
    forall p ensures EventType(name, p) in t && t[EventType(name, p)] == f(p) {
      match p {
        case SetRequesting =>
        case UploadProgress =>
        case DownloadProgress =>
        case RequestOk =>
        case RequestError =>
        case Finished =>
      }
    }
  }

  /** The entries one descriptor registers: the six lifecycle handlers of a
      request descriptor, the one handler of a simple descriptor under its
      name, and nothing for a descriptor of any other type. */
  function Entries(d: Descriptor): (t: Table)
    ensures IsSimple(d) ==> t.Keys == {d.name} && t[d.name] == SimpleHandler(d)
    ensures !IsRequest(d) && !IsSimple(d) ==> t == map[]
  {
    LemmaKindsExclusive(d);
    if IsRequest(d) then LifecycleEntries(d)
    else if IsSimple(d) then map[d.name := SimpleHandler(d)]
    else map[]
  }

  /** The table registered by `descs` in order; a later entry overwrites an
      earlier one with the same event type. */
  function BuildTable(descs: seq<Descriptor>): Table {
    Register(descs, Entries)
  }

  /** The reducer over one table: an unregistered event type leaves the state
      as it is, a registered one runs its handler on `[state, ...args]`. */
  function Route(table: Table, s: State, e: Event): Completion<State> {
    if e.eventType in table then Apply(table[e.eventType], s, e.args) else Normal(s)
  }

  /** The flat reducer, in terms of the descriptor list: an event no descriptor
      registers leaves the state unchanged; otherwise the handler of the last
      descriptor registering its type runs. */
  lemma LemmaFlatRouting(descs: seq<Descriptor>, s: State, e: Event)
    ensures (forall i :: 0 <= i < |descs| ==> e.eventType !in Entries(descs[i])) ==>
      Route(BuildTable(descs), s, e) == Normal(s)
    ensures forall j :: LastRegisters(descs, Entries, j, e.eventType) ==>
      Route(BuildTable(descs), s, e) == Apply(Entries(descs[j])[e.eventType], s, e.args)
  {
    LemmaRegisterKeys(descs, Entries, e.eventType);
    forall j | LastRegisters(descs, Entries, j, e.eventType)
      ensures Route(BuildTable(descs), s, e) == Apply(Entries(descs[j])[e.eventType], s, e.args)
    {
      LemmaRegisterLastWins(descs, Entries, e.eventType, j);
    }
  }

  // ---------------------------------------------------------------------------
  // Namespaced mode.

  /** A namespace reducer's own slice; a missing slice defaults to an empty map. */
  function SliceOf(slices: map<string, State>, ns: string): State {
    if ns in slices then slices[ns] else map[]
  }

  function GroupNames(groups: seq<Group>): set<string> {
    set i | 0 <= i < |groups| :: groups[i].name
  }

  /** One namespace reducer applied to its own slice. */
  function NamespaceStep(g: Group, slices: map<string, State>, e: Event): Completion<State> {
    Route(BuildTable(g.actions), SliceOf(slices, g.name), e)
  }

  /** The combined reducer: each namespace in key order; the first namespace
      reducer to throw makes the whole dispatch throw. The new state holds one
      slice per namespace and nothing else. */
  function CombinedReduce(groups: seq<Group>, slices: map<string, State>, e: Event): (r: Completion<map<string, State>>)
    ensures r.Normal? ==> r.value.Keys == GroupNames(groups)
    ensures r.Throw? ==> exists i :: 0 <= i < |groups| && NamespaceStep(groups[i], slices, e) == Throw(r.error)
    decreases |groups|
  {
    if groups == [] then Normal(map[])
    else
      match NamespaceStep(groups[0], slices, e)
      case Throw(err) => Throw(err)
      case Normal(s0) =>
        match CombinedReduce(groups[1..], slices, e)
        case Throw(err) =>
          assert forall i :: 0 <= i < |groups| - 1 ==> groups[1..][i] == groups[i + 1];
          Throw(err)
        case Normal(rest) =>
          assert GroupNames(groups) == GroupNames(groups[1..]) + {groups[0].name} by {
            assert forall i :: 0 < i < |groups| ==> groups[i] == groups[1..][i - 1];
          }
          Normal(rest[groups[0].name := s0])
  }

  /** A namespaced dispatch succeeds iff every namespace reducer does. */
  lemma {:induction false} LemmaNamespacedSucceeds(groups: seq<Group>, slices: map<string, State>, e: Event)
    ensures CombinedReduce(groups, slices, e).Normal? <==>
      forall i :: 0 <= i < |groups| ==> NamespaceStep(groups[i], slices, e).Normal?
    decreases |groups|
  {
    if groups != [] {
      var tail := groups[1..];
      LemmaNamespacedSucceeds(tail, slices, e);
      var head := NamespaceStep(groups[0], slices, e);
      assert CombinedReduce(groups, slices, e).Normal? <==> head.Normal? && CombinedReduce(tail, slices, e).Normal?;
      assert (forall i :: 0 <= i < |groups| ==> NamespaceStep(groups[i], slices, e).Normal?) <==>
        head.Normal? && forall i :: 0 <= i < |tail| ==> NamespaceStep(tail[i], slices, e).Normal? by {
        assert forall i :: 0 < i < |groups| ==> groups[i] == tail[i - 1];
      }
    }
  }

  /** A successful combined dispatch is the first namespace's new slice on
      top of the rest's successful dispatch. */
  lemma LemmaCombinedCons(groups: seq<Group>, slices: map<string, State>, e: Event)
    requires |groups| > 0
    requires CombinedReduce(groups, slices, e).Normal?
    ensures NamespaceStep(groups[0], slices, e).Normal?
    ensures CombinedReduce(groups[1..], slices, e).Normal?
    ensures CombinedReduce(groups, slices, e).value ==
      CombinedReduce(groups[1..], slices, e).value[groups[0].name := NamespaceStep(groups[0], slices, e).value]
  {
  }

  lemma LemmaDistinctTail(groups: seq<Group>)
    requires |groups| > 0 && DistinctGroupNames(groups)
    ensures DistinctGroupNames(groups[1..])
    ensures forall i :: 0 < i < |groups| ==> groups[i].name != groups[0].name
  {
    var tail := groups[1..];
    forall a, b | 0 <= a < b < |tail| ensures tail[a].name != tail[b].name {
      assert tail[a] == groups[a + 1] && tail[b] == groups[b + 1];
    }
  }

  /** Namespaced routing: after a successful dispatch each namespace's slice is
      what its own table makes of its own slice. */
  lemma {:induction false} LemmaNamespaceRouting(groups: seq<Group>, slices: map<string, State>, e: Event, i: int)
    requires DistinctGroupNames(groups)
    requires 0 <= i < |groups|
    requires CombinedReduce(groups, slices, e).Normal?
    ensures NamespaceStep(groups[i], slices, e).Normal?
    ensures CombinedReduce(groups, slices, e).value[groups[i].name] == NamespaceStep(groups[i], slices, e).value
    decreases |groups|
  {
    LemmaCombinedCons(groups, slices, e);
    if i > 0 {
      var tail := groups[1..];
      assert groups[i] == tail[i - 1];
      LemmaDistinctTail(groups);
      LemmaNamespaceRouting(tail, slices, e, i - 1);
    }
  }

  /** A namespace that does not register the event type keeps its slice. */
  lemma LemmaNamespaceKeepsSlice(groups: seq<Group>, slices: map<string, State>, e: Event, i: int)
    requires DistinctGroupNames(groups)
    requires 0 <= i < |groups|
    requires CombinedReduce(groups, slices, e).Normal?
    requires e.eventType !in BuildTable(groups[i].actions)
    ensures CombinedReduce(groups, slices, e).value[groups[i].name] == SliceOf(slices, groups[i].name)
  {
    LemmaNamespaceRouting(groups, slices, e, i);
  }
}

=== FILE: registry.dfy ===
/** Registration in configuration order: each item (a descriptor, or a
    namespace) contributes entries under string keys (event types for a handler
    table, callable names or namespace keys for the generated surface), and a
    later entry silently overwrites an earlier one with the same key. */
module Registry {
  function Register<T, V>(items: seq<T>, entries: T -> map<string, V>): map<string, V>
    decreases |items|
  {
    if items == [] then map[]
    else Register(items[..|items| - 1], entries) + entries(items[|items| - 1])
  }

  /** Item `j` is the last one in `items` to contribute key `k`. */
  predicate LastRegisters<T, V>(items: seq<T>, entries: T -> map<string, V>, j: int, k: string) {
    && 0 <= j < |items|
    && k in entries(items[j])
    && forall i :: j < i < |items| ==> k !in entries(items[i])
  }

  /** A key is registered iff some item contributes it. */
  lemma {:induction false} LemmaRegisterKeys<T, V>(items: seq<T>, entries: T -> map<string, V>, k: string)
    ensures k in Register(items, entries) <==> exists i :: 0 <= i < |items| && k in entries(items[i])
    decreases |items|
  {
    if items != [] {
      var n := |items| - 1;
      var init := items[..n];
      LemmaRegisterKeys(init, entries, k);
      assert forall i :: 0 <= i < n ==> init[i] == items[i];
    }
  }

  /** A registered key holds the entry of the last item contributing it. */
  lemma {:induction false} LemmaRegisterLastWins<T, V>(items: seq<T>, entries: T -> map<string, V>, k: string, j: int)
    requires LastRegisters(items, entries, j, k)
    ensures k in Register(items, entries) && Register(items, entries)[k] == entries(items[j])[k]
    decreases |items|
  {
    var n := |items| - 1;
    var init := items[..n];
    if j < n {
      assert k !in entries(items[n]);
      assert init[j] == items[j];
      assert LastRegisters(init, entries, j, k) by {
        forall i | j < i < |init| ensures k !in entries(init[i]) {
          assert init[i] == items[i];
        }
      }
      LemmaRegisterLastWins(init, entries, k, j);
    }
  }

  /** A single item registers exactly its own entries. */
  lemma LemmaRegisterSingle<T, V>(x: T, entries: T -> map<string, V>)
    ensures Register([x], entries) == entries(x)
  {
    assert [x][..0] == [];
  }

  /** Registering `items` on top of a table, then one more item's entries,
      is the table merged with the registration of all of them. */
  lemma LemmaRegisterOnTop<T, V>(t: map<string, V>, items: seq<T>, entries: T -> map<string, V>)
    requires items != []
    ensures (t + Register(items[..|items| - 1], entries)) + entries(items[|items| - 1]) == t + Register(items, entries)
  {
    var a := Register(items[..|items| - 1], entries);
    var e := entries(items[|items| - 1]);
    assert Register(items, entries) == a + e;
    LemmaMergeAssociates(t, a, e);
  }

  lemma LemmaMergeAssociates<V>(a: map<string, V>, b: map<string, V>, c: map<string, V>)
    ensures (a + b) + c == a + (b + c)
  {
    var l, r := (a + b) + c, a + (b + c);
    assert l.Keys == r.Keys;
    forall k | k in l ensures l[k] == r[k] {
      if k in c {
      } else if k in b {
      }
    }
  }
}

=== FILE: requests.dfy ===
/** The callable generated for a request descriptor, as one invocation.

    The transport is a function from the request configuration to what the
    server does: the progress events it delivers, in order, and whether the
    request succeeds with a response or fails with an error. The invocation
    produces the events dispatched, the final store state, the configuration
    handed to the transport (with the state at that moment), and how the
    returned promise settles.
 */
module Requests {
  import opened JsValues
  import opened Names
  import opened Descriptors
  import opened Store
  import opened Auth

  datatype Transfer = Upload(progress: Value) | Download(progress: Value)
  datatype Outcome = Response(response: Value) | Failure(error: Value)
  datatype Exchange = Exchange(transfers: seq<Transfer>, outcome: Outcome)

  /** The request body: a form built from the own keys of `source`, or the
      first argument as it is. */
  datatype Body = Form(source: Value) | Plain(value: Value)

  datatype RequestConfig = RequestConfig(
    baseUrl: Option<string>,
    httpMethod: Option<string>,
    url: Option<string>,
    data: Body,
    params: Value,
    headers: map<string, string>)

  type Transport = RequestConfig -> Exchange

  /** `['post', 'patch', 'put'].includes(method)`: exact, lower-case match. */
  predicate CarriesBody(m: Option<string>) {
    m == Some("post") || m == Some("patch") || m == Some("put")
  }

  /** The configuration handed to the transport. A truthy first argument of a
      post, patch or put becomes form fields with empty query parameters;
      otherwise the first argument (possibly `undefined`) is both the body and
      the query parameters. The path goes out verbatim. */
  function BuildRequest(d: Descriptor, args: seq<Value>, auth: Option<AuthConfig>, baseUrl: Option<string>): (r: RequestConfig)
    ensures r.data.Form? <==> IsTruthy(First(args)) && CarriesBody(d.httpMethod)
    ensures r.data.Form? ==> r.data.source == First(args) && r.params == Obj(map[])
    ensures r.data.Plain? ==> r.data.value == First(args) && r.params == First(args)
    ensures r.headers == AuthHeaders(d.isPrivate, auth)
    ensures r.url == d.path && r.httpMethod == d.httpMethod && r.baseUrl == baseUrl
  {
    var data := First(args);
    var headers := AuthHeaders(d.isPrivate, auth);
    if IsTruthy(data) && CarriesBody(d.httpMethod) then
      RequestConfig(baseUrl, d.httpMethod, d.path, Form(data), Obj(map[]), headers)
    else
      RequestConfig(baseUrl, d.httpMethod, d.path, Plain(data), data, headers)
  }

  /** The event dispatched for phase `p`, typed with the name derived for it
      (`LemmaPhaseEventTyping`). */
  function PhaseEvent(name: string, p: Phase, args: seq<Value>): Event {
    Event(EventType(name, p), args)
  }

  /** The callable types its events with the names `generateDerivedActionsNames`
      derives. */
  lemma LemmaPhaseEventTyping(name: string, p: Phase, args: seq<Value>)
    ensures PhaseEvent(name, p, args).eventType == DeriveNames(name).TypeOf(p)
  {
  }

  /** A progress event is dispatched with the event prepended to the call's
      arguments. */
  function TransferEvent(name: string, t: Transfer, args: seq<Value>): Event {
    match t
    case Upload(v) => PhaseEvent(name, UploadProgress, [v] + args)
    case Download(v) => PhaseEvent(name, DownloadProgress, [v] + args)
  }

  function TransferEvents(name: string, ts: seq<Transfer>, args: seq<Value>): (r: seq<Event>)
    ensures |r| == |ts|
    ensures forall i :: 0 <= i < |ts| ==>
      && r[i].eventType == EventType(name, if ts[i].Upload? then UploadProgress else DownloadProgress)
      && r[i].args == [ts[i].progress] + args
  {
    seq(|ts|, i requires 0 <= i < |ts| => TransferEvent(name, ts[i], args))
  }

  datatype Tail<S> = Tail(trace: seq<Event>, state: S, settlement: Settlement)

  /** The `.catch` branch: Error then Finished, then reject with `{error, args}`.
      If either dispatch throws, the handler itself throws and the callable's
      promise is never settled. */
  function Recover<S>(reduce: Reducer<S>, s: S, name: string, args: seq<Value>, err: Value): (r: Tail<S>)
    ensures |r.trace| >= 1 && r.trace[0] == PhaseEvent(name, RequestError, [err] + args)
    ensures !r.settlement.Fulfilled?
    ensures r.settlement.Rejected? <==>
      && |r.trace| == 2
      && reduce(s, r.trace[0]).Normal?
      && reduce(reduce(s, r.trace[0]).value, r.trace[1]).Normal?
    ensures r.settlement.Rejected? ==>
      r.trace[1] == PhaseEvent(name, Finished, args) && r.settlement.reason == ErrorRecord(err, args)
  {
    var er := PhaseEvent(name, RequestError, [err] + args);
    match reduce(s, er)
    case Throw(_) => Tail([er], s, Pending)
    case Normal(s1) =>
      var fin := PhaseEvent(name, Finished, args);
      match reduce(s1, fin)
      case Throw(_) => Tail([er, fin], s1, Pending)
      case Normal(s2) => Tail([er, fin], s2, Rejected(ErrorRecord(err, args)))
  }

  /** What follows the transport's settlement. `.catch` is chained after
      `.then`, so an exception thrown while dispatching OK or Finished also
      takes the error branch, with that exception as the error. */
  function Settle<S>(reduce: Reducer<S>, s: S, name: string, args: seq<Value>, outcome: Outcome): (r: Tail<S>)
    ensures r.settlement.Fulfilled? <==>
      && outcome.Response?
      && reduce(s, PhaseEvent(name, RequestOk, [outcome.response] + args)).Normal?
      && reduce(reduce(s, PhaseEvent(name, RequestOk, [outcome.response] + args)).value, PhaseEvent(name, Finished, args)).Normal?
    ensures r.settlement.Fulfilled? ==>
      && r.trace == [PhaseEvent(name, RequestOk, [outcome.response] + args), PhaseEvent(name, Finished, args)]
      && r.settlement.value == ResponseRecord(outcome.response, args)
    ensures r.settlement.Rejected? ==>
      && |r.trace| >= 2
      && var er := r.trace[|r.trace| - 2];
      && er == PhaseEvent(name, RequestError, [First(er.args)] + args)
      && r.trace[|r.trace| - 1] == PhaseEvent(name, Finished, args)
      && r.settlement.reason == ErrorRecord(First(er.args), args)
  {
    match outcome
    case Failure(err) =>
      var t := Recover(reduce, s, name, args, err);
      assert t.settlement.Rejected? ==> First(t.trace[0].args) == err;
      t
    case Response(resp) =>
      var ok := PhaseEvent(name, RequestOk, [resp] + args);
      match reduce(s, ok)
      case Throw(x) =>
        var t := Recover(reduce, s, name, args, x);
        var trace := [ok] + t.trace;
        assert t.settlement.Rejected? ==>
          && trace[|trace| - 2] == t.trace[0] && trace[|trace| - 1] == t.trace[1]
          && First(t.trace[0].args) == x;
        Tail(trace, t.state, t.settlement)
      case Normal(s1) =>
        var fin := PhaseEvent(name, Finished, args);
        match reduce(s1, fin)
        case Throw(x) =>
          var t := Recover(reduce, s1, name, args, x);
          var trace := [ok, fin] + t.trace;
          assert t.settlement.Rejected? ==>
            && trace[|trace| - 2] == t.trace[0] && trace[|trace| - 1] == t.trace[1]
            && First(t.trace[0].args) == x;
          Tail(trace, t.state, t.settlement)
        case Normal(s2) => Tail([ok, fin], s2, Fulfilled(ResponseRecord(resp, args)))
  }

  /** The transport call: its configuration and the store state it saw. */
  datatype Sent<S> = Sent(config: RequestConfig, stateAtCall: S)

  datatype RequestRun<S> = RequestRun(trace: seq<Event>, state: S, sent: Option<Sent<S>>, settlement: Settlement)

  /** One invocation of a request callable with arguments `args`.

      Requesting is dispatched first; the transport is called only once it
      has been reduced, so the transport sees the state it produced. If the
      Requesting dispatch throws, the promise executor throws: the promise
      rejects with that exception itself, and no request is made. */
  function RequestCall<S(!new)>(reduce: Reducer<S>, s: S, d: Descriptor, args: seq<Value>,
                                auth: Option<AuthConfig>, baseUrl: Option<string>, transport: Transport): (r: RequestRun<S>)
    ensures |r.trace| >= 1 && r.trace[0] == PhaseEvent(d.name, SetRequesting, args)
    ensures r.sent.Some? <==> reduce(s, r.trace[0]).Normal?
    ensures r.sent.Some? ==>
      && r.sent.value.config == BuildRequest(d, args, auth, baseUrl)
      && r.sent.value.stateAtCall == reduce(s, r.trace[0]).value
    ensures r.sent.None? ==>
      r.trace == [r.trace[0]] && r.state == s && r.settlement == Rejected(reduce(s, r.trace[0]).error)
    ensures r.settlement.Fulfilled? ==>
      && r.sent.Some?
      && var ex := transport(r.sent.value.config);
      && ex.outcome.Response?
      && r.trace == [r.trace[0]] + TransferEvents(d.name, ex.transfers, args) +
                    [PhaseEvent(d.name, RequestOk, [ex.outcome.response] + args), PhaseEvent(d.name, Finished, args)]
      && r.settlement.value == ResponseRecord(ex.outcome.response, args)
    ensures r.settlement.Rejected? && r.sent.Some? ==>
      && |r.trace| >= 3
      && var er := r.trace[|r.trace| - 2];
      && er == PhaseEvent(d.name, RequestError, [First(er.args)] + args)
      && r.trace[|r.trace| - 1] == PhaseEvent(d.name, Finished, args)
      && r.settlement.reason == ErrorRecord(First(er.args), args)
  {
    var req := PhaseEvent(d.name, SetRequesting, args);
    match reduce(s, req)
    case Throw(x) => RequestRun([req], s, None, Rejected(x))
    case Normal(s1) =>
      var config := BuildRequest(d, args, auth, baseUrl);
      var ex := transport(config);
      var progress := TransferEvents(d.name, ex.transfers, args);
      var s2 := DispatchEach(reduce, s1, progress);
      var t := Settle(reduce, s2, d.name, args, ex.outcome);
      var trace := [req] + progress + t.trace;
      assert t.settlement.Rejected? ==>
        trace[|trace| - 2] == t.trace[|t.trace| - 2] && trace[|trace| - 1] == t.trace[|t.trace| - 1];
      RequestRun(trace, t.state, Some(Sent(config, s1)), t.settlement)
  }

  /** The store never throws. */
  ghost predicate NeverThrows<S(!new)>(reduce: Reducer<S>) {
    forall x, e :: reduce(x, e).Normal?
  }

  /** With handlers that do not throw, a successful request dispatches exactly
      Requesting, its progress events, OK and Finished, and resolves with
      `{response, args}`. */
  lemma LemmaSuccessOrder<S(!new)>(reduce: Reducer<S>, s: S, d: Descriptor, args: seq<Value>,
                                   auth: Option<AuthConfig>, baseUrl: Option<string>, transport: Transport)
    requires NeverThrows(reduce)
    requires transport(BuildRequest(d, args, auth, baseUrl)).outcome.Response?
    ensures var r := RequestCall(reduce, s, d, args, auth, baseUrl, transport);
      var ex := transport(BuildRequest(d, args, auth, baseUrl));
      && r.trace == [PhaseEvent(d.name, SetRequesting, args)] + TransferEvents(d.name, ex.transfers, args) +
                    [PhaseEvent(d.name, RequestOk, [ex.outcome.response] + args), PhaseEvent(d.name, Finished, args)]
      && r.settlement == Fulfilled(ResponseRecord(ex.outcome.response, args))
  {
  }

  /** With handlers that do not throw, a failed request dispatches exactly
      Requesting, its progress events, Error and Finished, and rejects with
      `{error, args}`. */
  lemma LemmaFailureOrder<S(!new)>(reduce: Reducer<S>, s: S, d: Descriptor, args: seq<Value>,
                                   auth: Option<AuthConfig>, baseUrl: Option<string>, transport: Transport)
    requires NeverThrows(reduce)
    requires transport(BuildRequest(d, args, auth, baseUrl)).outcome.Failure?
    ensures var r := RequestCall(reduce, s, d, args, auth, baseUrl, transport);
      var ex := transport(BuildRequest(d, args, auth, baseUrl));
      && r.trace == [PhaseEvent(d.name, SetRequesting, args)] + TransferEvents(d.name, ex.transfers, args) +
                    [PhaseEvent(d.name, RequestError, [ex.outcome.error] + args), PhaseEvent(d.name, Finished, args)]
      && r.settlement == Rejected(ErrorRecord(ex.outcome.error, args))
  {
  }

  /** An exception from the OK dispatch is handled like a transport error: OK,
      then Error carrying that exception, then Finished, and the promise
      rejects with it. */
  lemma LemmaOkThrowTakesErrorBranch<S>(reduce: Reducer<S>, s: S, name: string, args: seq<Value>, resp: Value, x: Value)
    requires reduce(s, PhaseEvent(name, RequestOk, [resp] + args)) == Throw(x)
    requires reduce(s, PhaseEvent(name, RequestError, [x] + args)).Normal?
    requires reduce(reduce(s, PhaseEvent(name, RequestError, [x] + args)).value, PhaseEvent(name, Finished, args)).Normal?
    ensures var t := Settle(reduce, s, name, args, Response(resp));
      && t.trace == [PhaseEvent(name, RequestOk, [resp] + args), PhaseEvent(name, RequestError, [x] + args),
                     PhaseEvent(name, Finished, args)]
      && t.settlement == Rejected(ErrorRecord(x, args))
      && t.state == reduce(reduce(s, PhaseEvent(name, RequestError, [x] + args)).value, PhaseEvent(name, Finished, args)).value
  {
  }

  /** Once the REQUESTING step succeeds, a call is the request event, the
      progress events and the settling events, in that order. */
  lemma LemmaRequestCallSteps<S(!new)>(reduce: Reducer<S>, s: S, d: Descriptor, args: seq<Value>,
                                       auth: Option<AuthConfig>, baseUrl: Option<string>, transport: Transport)
    requires reduce(s, PhaseEvent(d.name, SetRequesting, args)).Normal?
    ensures var s1 := reduce(s, PhaseEvent(d.name, SetRequesting, args)).value;
      var config := BuildRequest(d, args, auth, baseUrl);
      var ex := transport(config);
      var progress := TransferEvents(d.name, ex.transfers, args);
      var t := Settle(reduce, DispatchEach(reduce, s1, progress), d.name, args, ex.outcome);
      RequestCall(reduce, s, d, args, auth, baseUrl, transport) ==
        RequestRun([PhaseEvent(d.name, SetRequesting, args)] + progress + t.trace, t.state, Some(Sent(config, s1)), t.settlement)
  {
  }

  /** A transport that answers at once, without transfer events: the call is
      the request event followed by the settling events. */
  lemma LemmaImmediateAnswerCall<S(!new)>(reduce: Reducer<S>, s: S, d: Descriptor, args: seq<Value>,
                                          auth: Option<AuthConfig>, baseUrl: Option<string>, transport: Transport,
                                          resp: Value, s1: S, t: Tail<S>)
    requires reduce(s, PhaseEvent(d.name, SetRequesting, args)) == Normal(s1)
    requires transport(BuildRequest(d, args, auth, baseUrl)) == Exchange([], Response(resp))
    requires Settle(reduce, s1, d.name, args, Response(resp)) == t
    ensures RequestCall(reduce, s, d, args, auth, baseUrl, transport) ==
      RequestRun([PhaseEvent(d.name, SetRequesting, args)] + t.trace, t.state,
                 Some(Sent(BuildRequest(d, args, auth, baseUrl), s1)), t.settlement)
  {
    LemmaRequestCallSteps(reduce, s, d, args, auth, baseUrl, transport);
    assert TransferEvents(d.name, [], args) == [];
    assert DispatchEach(reduce, s1, []) == s1;
  }
}

=== FILE: simple_calls.dfy ===
/** The callable generated for a simple descriptor, as one invocation: one
    dispatch of `{type: name, args}`, inside a `try` that turns an exception
    into a rejection. */
module SimpleCalls {
  import opened JsValues
  import opened Descriptors
  import opened Store

  datatype SimpleRun<S> = SimpleRun(trace: seq<Event>, state: S, settlement: Settlement)

  /** Resolves with `{args}` when the dispatch returns, with the reducer's new
      state; rejects with `{error, args}` when it throws, and the state is left
      as it was. */
  function SimpleCall<S>(reduce: Reducer<S>, s: S, d: Descriptor, args: seq<Value>): (r: SimpleRun<S>)
    ensures r.trace == [Event(d.name, args)]
    ensures r.settlement.Fulfilled? <==> reduce(s, Event(d.name, args)).Normal?
    ensures r.settlement.Fulfilled? ==>
      r.settlement.value == ArgsRecord(args) && r.state == reduce(s, Event(d.name, args)).value
    ensures !r.settlement.Fulfilled? ==>
      r.settlement == Rejected(ErrorRecord(reduce(s, Event(d.name, args)).error, args)) && r.state == s
  {
    var e := Event(d.name, args);
    match reduce(s, e)
    case Normal(s1) => SimpleRun([e], s1, Fulfilled(ArgsRecord(args)))
    case Throw(err) => SimpleRun([e], s, Rejected(ErrorRecord(err, args)))
  }
}

=== FILE: store.dfy ===
/** The store as the generated callables see it: dispatching an event runs the
    root reducer; when the reducer throws, the store keeps its state and the
    exception reaches the dispatcher. Events carry their arguments as an array,
    which the reducer spreads after the state.
 */
module Store {
  import opened JsValues

  datatype Event = Event(eventType: string, args: seq<Value>)

  /** The root reducer of a store whose state has type `S`. */
  type Reducer<!S> = (S, Event) -> Completion<S>

  /** The state of the store once `e` has been dispatched. */
  function StateAfter<S>(reduce: Reducer<S>, s: S, e: Event): S {
    match reduce(s, e)
    case Normal(s') => s'
    case Throw(_) => s
  }

  /** An event that leaves every state as it is, or throws. */
  ghost predicate Inert<S(!new)>(reduce: Reducer<S>, e: Event) {
    forall x :: reduce(x, e) == Normal(x) || reduce(x, e).Throw?
  }

  /** Dispatches `events` in order. An exception thrown by one dispatch does not
      stop the others (it surfaces in the listener that dispatched it). */
  function DispatchEach<S(!new)>(reduce: Reducer<S>, s: S, events: seq<Event>): (r: S)
    ensures (forall i :: 0 <= i < |events| ==> Inert(reduce, events[i])) ==> r == s
  {
    if events == [] then s
    else
      assert Inert(reduce, events[0]) ==> StateAfter(reduce, s, events[0]) == s;
      DispatchEach(reduce, StateAfter(reduce, s, events[0]), events[1..])
  }

  /** How the promise a callable returns settles; `Pending` if it never does. */
  datatype Settlement = Fulfilled(value: Value) | Rejected(reason: Value) | Pending

  /** `{args}` */
  function ArgsRecord(args: seq<Value>): Value {
    Obj(map["args" := Arr(args)])
  }

  /** `{response, args}` */
  function ResponseRecord(response: Value, args: seq<Value>): Value {
    Obj(map["response" := response, "args" := Arr(args)])
  }

  /** `{error, args}` */
  function ErrorRecord(error: Value, args: seq<Value>): Value {
    Obj(map["error" := error, "args" := Arr(args)])
  }
}
